=== FILE: README.md ===
# Vault dashboard: a Dafny model of its computed core

Vault is a personal-finance dashboard written in React on top of a hosted
record store. This project models the parts of it that compute something,
stripped of markup and plumbing:

- **Reports aggregation** (`reports.dfy`, `categories.dfy`).
  - Income and expense totals are filtered by transaction type.
  - Savings and debt totals, and net worth.
  - Cash flow, the savings rate and the debt-to-assets ratio, each with its divide-by-zero guard.
  - Goal progress with its `|| 1` target guard, and the capped bar width.
  - The grouping of expenses by category, with an absent category becoming "Other".
  - The stable descending sort, cut to the top five.
  - The guarded category percentage.
- **The entity data hooks** (`hooks.dfy`). Each hook is a state `{list, loading, error}`. Each fetch, add or update is one atomic transition driven by the store's reply. The joint tax fetch is one transition over two replies.
- **Identifier validation and the auth forms** (`validation.dfy`, `auth_forms.dfy`).
  - The email-shape and 13-digit SA ID predicates.
  - The ordered first-failure-wins checks of the login and sign-up pages.
  - The mapping from an SA ID to `<id>@vault.app`.
- **Display derivations** (`pages.dfy`, `text.dfy`, `data_table.dfy`).
  - From the tax page: the refund/owing precedence, the clamped "remaining" deduction, the status label and colour.
  - From the budget page: surplus/deficit and its three-way colour.
  - From the insurance page: the fallbacks and the status colour.
  - The underscore-to-title formatter that the tax and insurance pages share.
  - The generic table's cell class, format dispatch and render override.

Conventions:

- Numeric columns that may be absent are `Option<real>`. Arithmetic is exact `real`.
- JavaScript truthiness is modelled explicitly: `x || 0` is `Records.OrZero` and `x || 1` is `Records.OrOne`. A text field's `|| '-'` treats the empty string as absent.
- Every JavaScript `reduce` is a left fold, modelled as a function that recurses on the prefix and adds the last element.
- `sums.dfy` holds the generic sum, `records.dfy` the entities, `wrappers.dfy` `Option` and `Result`.
- `scenarios.dfy` works the definitions through concrete records.

## Model

| member | source | states |
|---|---|---|
| Records.OrZero | src/pages/Reports.jsx:16 | Defaulting to 0 reads a present number as itself, zero included, and a missing one as 0. |
| Records.OrOne | src/pages/Reports.jsx:33 | Defaulting to 1 never gives 0. It reads a present non-zero number as itself, and a missing or zero one as 1. |
| Reports.TotalsAreTypedSums | src/pages/Reports.jsx:14-20 | The income total is the sum over transactions typed `income` only, and the expense total over `expense` only. An absent amount counts 0. With no transaction of a type, that total is 0. |
| Reports.FilteredTotalIsKindTotal | src/pages/Reports.jsx:14-20 | Filtering by type and then summing equals visiting every transaction and adding its share for that type. |
| Reports.OfKindMembers | src/pages/Reports.jsx:15 | As a set, the type filter keeps exactly the transactions of the given type. |
| Reports.OfKindSingleton | src/pages/Reports.jsx:15 | Filtering one transaction gives that transaction if it has the type, and nothing otherwise. |
| Reports.OfKindAppend | src/pages/Reports.jsx:15 | Filtering a concatenation concatenates the filtered parts. With the singleton law, kept transactions keep their order and their multiplicity. |
| Reports.TotalsAfterAppend | src/pages/Reports.jsx:14-20 | One more transaction raises the total of its own type by its amount and leaves the other total alone. |
| Reports.TotalsNonNegative | src/pages/Reports.jsx:14-20 | With non-negative amounts both totals are non-negative. |
| Reports.NetWorthAfterAppend | src/pages/Reports.jsx:22-28 | Net worth rises by an added account's balance and falls by an added debt's balance, absent balances counting 0. |
| Reports.KindTotalsAreSigned | src/pages/Reports.jsx:172-173 | Income share minus expense share, summed over all transactions, is the signed sum: income counts plus, expense counts minus, other types count 0. |
| Reports.CashFlowIsSignedSum | src/pages/Reports.jsx:172-173 | The cash flow equals that signed sum over all transactions. |
| Reports.SavingsRate | src/pages/Reports.jsx:179 | The rate is 0 unless income is positive. Otherwise rate × income = cash flow × 100. |
| Reports.DebtToAssets | src/pages/Reports.jsx:185 | The ratio is 0 unless savings are positive. Otherwise ratio × savings = debt × 100. |
| Reports.RatioBounds | src/pages/Reports.jsx:179-185 | With non-negative amounts the savings rate is at most 100. With non-negative debt balances the debt-to-assets ratio is non-negative. |
| Reports.GoalProgress | src/pages/Reports.jsx:31-34 | progress × (target, or 1 when absent or 0) = (current, or 0) × 100. With a falsy target the progress is current × 100. |
| Reports.GoalsProgress | src/pages/Reports.jsx:31-34 | One progress per goal, in goal order. |
| Reports.GoalProgressMonotone | src/pages/Reports.jsx:33 | For a positive target, progress grows with the current amount. It reaches 100 exactly when the current amount reaches the target. |
| Reports.BarWidth | src/pages/Reports.jsx:152 | The bar width never exceeds 100. It is either the progress or 100, and equals the progress up to 100. |
| Categories.Label | src/pages/Reports.jsx:40 | The label is never empty. It is the category when that is present and non-empty, and "Other" when the category is absent or empty. |
| Categories.DepositKeys | src/pages/Reports.jsx:41 | Adding to the grouped object keeps existing categories in place and appends a new one at the end. |
| Categories.DepositAmount | src/pages/Reports.jsx:41 | Adding an amount under `c` raises `c`'s bucket by that amount and no other bucket. |
| Categories.DepositSum | src/pages/Reports.jsx:41 | Adding an amount raises the sum over all buckets by that amount. |
| Categories.FirstAppearancesSpec | src/pages/Reports.jsx:37-43 | The reference list of labels in order of first appearance is duplicate-free and holds exactly the labels. |
| Categories.GroupKeys | src/pages/Reports.jsx:37-43 | The buckets' categories are the labels in order of first appearance. |
| Categories.GroupAmounts | src/pages/Reports.jsx:37-43 | Each bucket holds the summed amount of the transactions carrying its label. |
| Categories.GroupSum | src/pages/Reports.jsx:37-43 | Together the buckets hold the sum of all grouped amounts. |
| Categories.GroupSpec | src/pages/Reports.jsx:18-43 | Every expense lands in exactly one bucket, the one for its label. There is one bucket per distinct label, each holds its label's total, and the bucket totals sum to the expense total. |
| Categories.CategoryTotalBounds | src/pages/Reports.jsx:37-43 | With non-negative amounts a category's total lies between 0 and the sum of all amounts. |
| Categories.InsertPermutes | src/pages/Reports.jsx:46 | One insertion step adds exactly the inserted bucket. |
| Categories.InsertSorted | src/pages/Reports.jsx:46 | Inserting into a non-increasing list keeps it non-increasing. |
| Categories.InsertStable | src/pages/Reports.jsx:46 | The inserted bucket goes after all buckets of equal amount already there. |
| Categories.SortSpec | src/pages/Reports.jsx:46 | The sort yields a non-increasing permutation of its input. For every amount, the buckets holding it keep their input order. |
| Categories.StableSortIsUnique | src/pages/Reports.jsx:46 | Any non-increasing list that keeps the input order of equal amounts is the sort's output, so every stable descending sort gives the same list. |
| Categories.TopSpec | src/pages/Reports.jsx:45-47 | The ranking has min(5, number of distinct expense categories) entries and is non-increasing. Every entry is a real bucket carrying its category's total. A category left out holds no more than any category shown. |
| Categories.RankingIsStable | src/pages/Reports.jsx:45-46 | Among categories of equal amount the ranking keeps first-appearance order. |
| Categories.Percentage | src/pages/Reports.jsx:112 | The percentage is 0 when the expense total is not positive. Otherwise percentage × total = amount × 100. |
| Categories.TopPercentagesBounded | src/pages/Reports.jsx:112 | With non-negative amounts every listed category's percentage lies in [0, 100]. |
| Hooks.Initial | src/hooks/useFinancialData.js:15-17 | A hook starts with an empty list, loading, and no error. |
| Hooks.IssuesFetchIsGuardedEffect | src/hooks/useFinancialData.js:20-24 | A fetch is issued exactly when React reruns the effect, because the user or the type filter differs from the previous render or it is the first render, and a user is signed in. |
| Hooks.FetchTriggers | src/hooks/useFinancialData.js:20-24 | No fetch is issued without a user. With a user, a fetch is issued on mount, on a change of user and on a change of type filter. None is issued when nothing changed. |
| Hooks.Fetch | src/hooks/useFinancialData.js:26-37 | After every fetch loading is false. A success sets the list to the returned rows, or to [] for null data, and leaves the error. A failure records its message and keeps the list. |
| Hooks.OnDepsChange | src/hooks/useFinancialData.js:20-37 | Without a user, or with unchanged dependencies, the state is untouched. When the effect reruns with a user, loading ends false. On success the list becomes the returned rows and the earlier error stays; on failure the list stays and the message is recorded. |
| Hooks.SignOutKeepsStaleState | src/hooks/useFinancialData.js:20-24 | Losing the user issues no fetch and clears nothing: the previous list and error stay. |
| Hooks.Add | src/hooks/useFinancialData.js:39-48 | On success the new row is prepended and returned with a null error. On failure the state is unchanged and the message is returned with null data. Loading and error are never touched. |
| Hooks.ReplaceById | src/hooks/useFinancialData.js:93 | The list keeps its length. Elements with the id become the returned row and all others are unchanged. |
| Hooks.UpdateGoal | src/hooks/useFinancialData.js:89-98 | On success the goals with the id are replaced. On failure nothing changes and the message is returned with null data. |
| Hooks.ReplaceByIdLaws | src/hooks/useFinancialData.js:93 | An update of an id no goal carries changes nothing. Repeating an update whose row keeps the id changes nothing more. |
| Hooks.ErrorIsNeverCleared | src/hooks/useFinancialData.js:26-37 | Once set, the error survives every later fetch and add, successful or not. |
| Hooks.ErrorOnlyFromFetch | src/hooks/useFinancialData.js:26-48 | From any error-free state, the error is set exactly when some fetch in the run failed. Failed adds never set it. |
| Hooks.FreshHookErrorOnlyFromFetch | src/hooks/useFinancialData.js:15-48 | A freshly mounted hook shows an error after a run exactly when some fetch in the run failed. |
| Hooks.FailuresKeepList | src/hooks/useFinancialData.js:32-47 | A run of failed fetches and adds leaves the list as it was. |
| Hooks.FetchTaxData | src/hooks/useFinancialData.js:228-246 | If either reply failed, neither list changes. The tax error wins when both failed. Both lists are replaced only when both replies succeeded. Loading always ends false. |
| Hooks.TaxFetchAgainstSeparateFetches | src/hooks/useFinancialData.js:228-246 | Compared with two separate hooks fetching one table each: with both replies successful the lists agree; the joint error is set exactly when either separate hook would show one; when only the deductions query fails, the joint fetch keeps the old records that a separate hook would have replaced. |
| Hooks.TaxListsMoveTogether | src/hooks/useFinancialData.js:236-240 | The joint fetch never replaces one list without the other. |
| Validation.IsValidEmail | src/utils/validation.js:1-3 | An accepted email has at least five characters. Its first and last characters are neither whitespace nor '@'. |
| Validation.IsValidSAID | src/utils/validation.js:5-7 | An accepted SA ID contains no '@', so it is never also an accepted email. |
| Validation.EmailCharacterization | src/utils/validation.js:1-3 | An email is accepted iff it has exactly one '@' and no whitespace, and the '@' has something before it and a later '.' with something on each side. |
| Validation.EmailPartsHaveOneAt | src/utils/validation.js:2 | Three runs free of whitespace and '@' around an '@' and a '.' give exactly one '@' and no whitespace. |
| Validation.OneAtGivesEmailParts | src/utils/validation.js:2 | Conversely, with one '@' and no whitespace, the runs around the '@' and a later '.' are free of whitespace and '@'. |
| Validation.EmailHasOneAtAndNoWhitespace | src/utils/validation.js:2 | Every accepted email has exactly one '@' and no whitespace. |
| Validation.IdentifierKindsAreDisjoint | src/utils/validation.js:2-6 | No string is both a valid email and a valid SA ID. The empty string is neither. |
| Validation.SyntheticEmail | src/pages/Login.jsx:40 | The synthetic address is the identifier followed by exactly "@vault.app". |
| Validation.SyntheticEmailIsValid | src/pages/Login.jsx:40 | The address synthesised from a valid SA ID is itself a valid email. |
| AuthForms.SignInEmail | src/pages/Login.jsx:40 | The sign-in address is always a valid email. It is the identifier itself when that is an email, and `<identifier>@vault.app` otherwise. |
| AuthForms.ValidateLogin | src/pages/Login.jsx:25-42 | The checks pass iff the identifier is an email or an SA ID and the password is non-empty, and then yield the credentials (SignInEmail(identifier), password). A bad identifier reports its message before an empty password is looked at. |
| AuthForms.SubmitLogin | src/pages/Login.jsx:18-54 | signIn is called iff validation passes, with (SignInEmail(identifier), password), so an SA ID signs in as `<identifier>@vault.app`; otherwise the first failure's message is shown and loading is untouched. After a call loading is false. Only an accepted reply navigates to /dashboard. A rejection shows its message and an exception the generic message. |
| AuthForms.Utf16Length | src/pages/Signup.jsx:36 | The length counts UTF-16 code units. It is never below the character count and equals it for text inside the Basic Multilingual Plane. |
| AuthForms.ValidateSignup | src/pages/Signup.jsx:26-39 | The checks pass iff the SA ID, the email and a length of at least 6 all hold. The SA ID is checked first, then the email, then the password length. |
| AuthForms.SubmitSignup | src/pages/Signup.jsx:19-59 | signUp is called iff all three checks pass, with (email, password, SA ID). After a call loading is false. Only an accepted reply navigates to /login with the success message, leaving the page error empty. A rejection shows its message and an exception the generic message. |
| AuthForms.PasswordLengthBoundary | src/pages/Signup.jsx:36 | A six-character password passes and a five-character one fails with the length message. Three astral-plane characters already count six. |
| Text.Upper | src/pages/Tax.jsx:43 | Upper-casing maps a-z to A-Z and leaves every other character alone. |
| Text.Capitalize | src/pages/Tax.jsx:43 | Capitalizing keeps the length, upper-cases the first character and keeps the rest. |
| Text.SplitJoin | src/pages/Tax.jsx:42-44 | Splitting gives one more piece than there are separators, and no piece holds the separator. Joining the pieces with that separator restores the input. |
| Text.SnakeToTitleSpec | src/pages/Tax.jsx:41-45 | The formatter keeps the length. Each '_' becomes a space, the first character and every character after a '_' are upper-cased, and all other characters are kept. |
| Text.SnakeToTitleLaws | src/pages/Tax.jsx:41-45 | The formatted text holds no '_', and formatting it again changes nothing. |
| Text.SnakeToTitlePieces | src/pages/Insurance.jsx:40-44 | For input without spaces, the output has as many space-separated words as the input has '_'-separated pieces. |
| Pages.TaxStatusColor | src/pages/Tax.jsx:31-39 | assessed, submitted and pending get green, blue and yellow. Any other status, "closed" included, gets the one grey class. |
| Pages.RefundOrOwing | src/pages/Tax.jsx:96-106 | A positive refund is shown whatever the amount owing. Otherwise a positive amount owing is shown negated. Otherwise "In Progress" is shown. |
| Pages.TaxRowClockOnlyLabel | src/pages/Tax.jsx:80-84 | Rendering a record at two dates changes only the year label, and the label changes exactly when the record's year matches one date but not the other. |
| Pages.RefundHidesOwing | src/pages/Tax.jsx:96-103 | With both a refund and an amount owing positive, the refund is shown. |
| Pages.TaxRecordRow | src/pages/Tax.jsx:78-116 | The row is the tax year, labelled "Current Year" exactly when it is the clock's year and "Filed" otherwise, plus six cells. Absent amounts show 0, the status label is the status with its first letter upper-cased, and an absent submission date shows '-'. The badge is the status colour. |
| Pages.Remaining | src/pages/Tax.jsx:151 | Remaining exists iff the annual limit is truthy. It is then the limit minus the year-to-date amount, absent counting 0. |
| Pages.ClampAtZero | src/pages/Tax.jsx:164 | The clamped value is non-negative and at least the input, and it is the input or 0. |
| Pages.DeductionRow | src/pages/Tax.jsx:150-168 | Remaining is shown as money iff a limit exists, never negative. It is exactly limit minus year-to-date while that is non-negative, and 0 once the limit is used up. Otherwise '-' is shown. A falsy limit shows "No Limit". |
| Pages.SurplusDeficit | src/pages/Budget.jsx:31-33 | surplus + actual expenditure = actual income, absent values counting 0. |
| Pages.SurplusDeficitClass | src/pages/Budget.jsx:35-39 | Green iff the amount is positive, red iff negative, grey iff zero. |
| Pages.BudgetRowColour | src/pages/Budget.jsx:35-39 | A row is green exactly when actual income exceeds actual expenditure, red exactly when it falls short, and grey when they are equal. |
| Pages.BudgetPlanRow | src/pages/Budget.jsx:71-94 | Absent projected and actual amounts show 0. The surplus cell carries its sign colour, and absent or empty notes show '-'. |
| Pages.PolicyStatusColor | src/pages/Insurance.jsx:31-38 | active gets green and expired red. Any other status, "cancelled" included, gets the one grey class. |
| Pages.InsurancePolicyRow | src/pages/Insurance.jsx:76-103 | The row has seven cells. The type is title-formatted, falsy coverage shows 'N/A', an absent renewal date shows 'N/A' and an absent last claim 'None'. The status label upper-cases only the first letter. |
| Pages.ZeroCoverageIsNotApplicable | src/pages/Insurance.jsx:87 | A zero coverage shows 'N/A' exactly like a missing one. |
| DataTable.Lookup | src/components/DataTable.jsx:48 | A key the row has reads as its value. A key the row lacks reads as missing. |
| DataTable.FormatCellValue | src/components/DataTable.jsx:5-13 | Currency and date columns go to their formatters. Every other type shows the value unchanged. |
| DataTable.CellClassName | src/components/DataTable.jsx:15-22 | A currency cell is green iff its value is positive, red iff negative, and grey otherwise. A non-currency cell is always 'text-gray-800'. |
| DataTable.RenderCell | src/components/DataTable.jsx:46-54 | A column's render function, when present, decides the content. Otherwise the type-based formatter does. The class comes from the value in either case. |
| DataTable.RenderOverridesContentOnly | src/components/DataTable.jsx:48-52 | Adding a render function changes a cell's content but never its class. |
| DataTable.RenderTable | src/components/DataTable.jsx:36-57 | The table has one header per column, one row per data element and one cell per column, all in input order. |
| Scenarios.MonthlyTotals | src/pages/Reports.jsx:14-20 | An income of 25000 with expenses of 1250 and 850 gives totals of 25000 and 2100. |
| Scenarios.MonthlySummaryExample | src/pages/Reports.jsx:172-179 | The same month has a cash flow of 22900 and a savings rate of 91.6. |
| Scenarios.TieGrouping | src/pages/Reports.jsx:37-43 | Expenses B 100, A 100 and C 50 group into buckets in the order B, A, C. |
| Scenarios.StableTieExample | src/pages/Reports.jsx:45-47 | The ranking keeps B ahead of A although their amounts tie. |
| Scenarios.BudgetDeficitExample | src/pages/Budget.jsx:31-39 | Actual income 10000 against expenditure 12000 is a deficit of 2000, shown red. |
| Scenarios.GoalProgressExample | src/pages/Reports.jsx:33 | 85600 saved of 150000 is progress 85600/1500, and the bar has the same width. |

## Left out

- The record store (src/services/supabaseService.js) is not part of this model. Each query's reply is a parameter: rows, null data, or an error message. The service asks for transactions newest first (`date` descending) and for most other lists by `created_at` descending; the model takes each reply's order as given, and that order decides which category appears first in a tie. Upserts pass no conflict key, so which row they replace is left to the table's constraints.
- Currency and date formatting (`Intl.NumberFormat`, `Intl.DateTimeFormat`), `toFixed`, `Math.round` and `parseFloat` are left out. They are locale and floating-point concerns. Amounts are exact reals that are already parsed, and a formatted cell is modelled as the value handed to the formatter.
- Concurrency and React plumbing are left out: async scheduling, `Promise.all`, overlapping or stale fetches, effect timing and the auth context. Each hook operation is one atomic transition.
- The hooks other than transactions and goals share the same fetch shape. They are all modelled by the one generic `Hooks.Fetch`.
- `Object.entries` lists integer-like keys before the others. The model keeps buckets in first-appearance order and does not model that reordering. Category names that collide with `Object.prototype` members, such as "constructor", are not modelled either.
- The demo pages (alerts, income, savings, debt, subscriptions, goals) are left out because they render hard-coded demo arrays instead of stored records. Their logic is presentation only: the alert icon and colour `switch` lookups (src/pages/Alerts.jsx:54-99), the unread, priority and milestone counts by `filter(...).length` (src/pages/Alerts.jsx:109-169), the goal status colour lookup (src/pages/Goals.jsx:44-51), and column definitions handed to the shared DataTable, which is modelled. No function maps goal progress to a status; the goals page hard-codes the status text. Routing, navigation chrome and static markup are left out too.
- The current-year deductions query depends on the clock and is left out. The tax table's "Current Year"/"Filed" label takes the clock's year as a parameter.
- Text.Upper: `toUpperCase` is modelled for the ASCII letters only. Other characters are left unchanged, which understates JavaScript's full Unicode case mapping.
- DataTable.CellClassName: a value's colour is decided only for numbers. JavaScript's coercion of numeric strings in `value > 0` is not modelled, and such values get the grey class.
- Hooks.Add: a store reply that reports success but carries null data would prepend `null` in the source. The model's success reply always carries a row.
- Hooks.SignOutKeepsStaleState: the code never clears a hook's list or error when the user becomes null, and the model follows the code.
- Pages.InsurancePolicyRow: the source formats the monthly premium as it is, and an absent premium would reach the currency formatter as `undefined`. The model shows an absent premium as 0.
- AuthForms.SubmitLogin / AuthForms.SubmitSignup: `formData` updates, the `preventDefault` call and the initial `setError('')` are not modelled separately. The page state after a submission is the final one.

=== FILE: auth_forms.dfy ===
/** The submit handlers of the login and sign-up pages
    (src/pages/Login.jsx, src/pages/Signup.jsx): ordered client-side checks
    where the first failure sets its message and stops, then one call to the
    identity provider, whose answer is a parameter here. */
module AuthForms {
  import opened Wrappers
  import opened Validation

  const LoginIdentifierMessage: string := "Please enter a valid email or 13-digit SA ID number"
  const LoginPasswordMessage: string := "Please enter your password"
  const SignupIdMessage: string := "Please enter a valid 13-digit South African ID number"
  const SignupEmailMessage: string := "Please enter a valid email address"
  const SignupPasswordMessage: string := "Password must be at least 6 characters long"
  const UnexpectedMessage: string := "An unexpected error occurred"
  const SignupSuccessMessage: string := "Account created successfully! Please log in."
  const DashboardRoute: string := "/dashboard"
  const LoginRoute: string := "/login"
  const MinPasswordLength: nat := 6

  /** How the identity provider answered: no error, an error carrying a
      message, or an exception. */
  datatype AuthReply = Accepted | Rejected(message: string) | Threw

  /** The page's `error` and `loading` state. */
  datatype PageState = PageState(error: string, loading: bool)

  datatype Credentials = Credentials(email: string, password: string)

  datatype Navigation = Navigation(route: string, message: Option<string>)

  // ----- login -----

  /** The address handed to `signIn`: the identifier when it is an email,
      otherwise the synthetic `<identifier>@vault.app`. */
  function SignInEmail(identifier: string): (email: string)
    requires IsValidEmail(identifier) || IsValidSAID(identifier)
    ensures IsValidEmail(email)
    ensures IsValidEmail(identifier) ==> email == identifier
    ensures !IsValidEmail(identifier) ==> email == identifier + "@vault.app"
  {
    if IsValidEmail(identifier) then identifier
    else
      SyntheticEmailIsValid(identifier);
      SyntheticEmail(identifier)
  }

  /** The two login checks in order: the identifier, then the password. */
  function ValidateLogin(identifier: string, password: string): (r: Result<Credentials, string>)
    ensures r.Success? <==> (IsValidEmail(identifier) || IsValidSAID(identifier)) && password != ""
    ensures !(IsValidEmail(identifier) || IsValidSAID(identifier)) ==> r == Failure(LoginIdentifierMessage)
    ensures (IsValidEmail(identifier) || IsValidSAID(identifier)) && password == "" ==> r == Failure(LoginPasswordMessage)
    ensures r.Success? ==> IsValidEmail(r.value.email) && r.value.password == password
    ensures r.Success? ==> r.value == Credentials(SignInEmail(identifier), password)
  {
    if !(IsValidEmail(identifier) || IsValidSAID(identifier)) then Failure(LoginIdentifierMessage)
    else if password == "" then Failure(LoginPasswordMessage)
    else Success(Credentials(SignInEmail(identifier), password))
  }

  /** What one login submission did. */
  datatype LoginAttempt = LoginAttempt(page: PageState, signIn: Option<Credentials>, navigate: Option<Navigation>)

  /** `handleSubmit` of the login page. */
  function SubmitLogin(before: PageState, identifier: string, password: string, reply: AuthReply): (r: LoginAttempt)
    ensures r.signIn.Some? <==> (IsValidEmail(identifier) || IsValidSAID(identifier)) && password != ""
    ensures r.signIn.None? ==> r.page.loading == before.loading && r.navigate.None?
    ensures r.signIn.None? ==> r.page.error == ValidateLogin(identifier, password).error
    ensures r.signIn.Some? ==> !r.page.loading && IsValidEmail(r.signIn.value.email)
    ensures r.signIn.Some? ==> r.signIn.value == Credentials(SignInEmail(identifier), password)
    ensures r.navigate.Some? <==> r.signIn.Some? && reply.Accepted?
    ensures r.navigate.Some? ==> r.navigate.value.route == DashboardRoute && r.page.error == ""
    ensures r.signIn.Some? && reply.Rejected? ==> r.page.error == reply.message
    ensures r.signIn.Some? && reply.Threw? ==> r.page.error == UnexpectedMessage
  {
    match ValidateLogin(identifier, password)
    case Failure(message) => LoginAttempt(PageState(message, before.loading), None, None)
    case Success(credentials) =>
      match reply
      case Accepted => LoginAttempt(PageState("", false), Some(credentials), Some(Navigation(DashboardRoute, None)))
      case Rejected(message) => LoginAttempt(PageState(message, false), Some(credentials), None)
      case Threw => LoginAttempt(PageState(UnexpectedMessage, false), Some(credentials), None)
  }

  // ----- sign-up -----

  /** `password.length`: JavaScript counts UTF-16 code units, so a character
      outside the Basic Multilingual Plane counts twice. */
  function Utf16Length(s: string): (n: nat)
    ensures n >= |s|
    ensures (forall k :: 0 <= k < |s| ==> s[k] <= '\U{FFFF}') ==> n == |s|
  {
    if |s| == 0 then 0 else (if s[0] > '\U{FFFF}' then 2 else 1) + Utf16Length(s[1..])
  }

  /** The three sign-up checks in order: SA ID, email, password length. */
  function ValidateSignup(saId: string, email: string, password: string): (r: Result<(), string>)
    ensures r.Success? <==> IsValidSAID(saId) && IsValidEmail(email) && Utf16Length(password) >= MinPasswordLength
    ensures !IsValidSAID(saId) ==> r == Failure(SignupIdMessage)
    ensures IsValidSAID(saId) && !IsValidEmail(email) ==> r == Failure(SignupEmailMessage)
    ensures IsValidSAID(saId) && IsValidEmail(email) && Utf16Length(password) < MinPasswordLength ==>
      r == Failure(SignupPasswordMessage)
  {
    if !IsValidSAID(saId) then Failure(SignupIdMessage)
    else if !IsValidEmail(email) then Failure(SignupEmailMessage)
    else if Utf16Length(password) < MinPasswordLength then Failure(SignupPasswordMessage)
    else Success(())
  }

  /** The arguments of one `signUp(email, password, saId)` call. */
  datatype Registration = Registration(email: string, password: string, saId: string)

  datatype SignupAttempt = SignupAttempt(page: PageState, signUp: Option<Registration>, navigate: Option<Navigation>)

  /** `handleSubmit` of the sign-up page. */
  function SubmitSignup(before: PageState, saId: string, email: string, password: string, reply: AuthReply): (r: SignupAttempt)
    ensures r.signUp.Some? <==> IsValidSAID(saId) && IsValidEmail(email) && Utf16Length(password) >= MinPasswordLength
    ensures r.signUp.Some? ==> r.signUp.value == Registration(email, password, saId) && !r.page.loading
    ensures r.signUp.None? ==> r.page.loading == before.loading && r.navigate.None?
    ensures r.signUp.None? ==> r.page.error == ValidateSignup(saId, email, password).error
    ensures r.navigate.Some? <==> r.signUp.Some? && reply.Accepted?
    ensures r.navigate.Some? ==> r.navigate.value == Navigation(LoginRoute, Some(SignupSuccessMessage))
    ensures r.navigate.Some? ==> r.page.error == ""
    ensures r.signUp.Some? && reply.Rejected? ==> r.page.error == reply.message
    ensures r.signUp.Some? && reply.Threw? ==> r.page.error == UnexpectedMessage
  {
    match ValidateSignup(saId, email, password)
    case Failure(message) => SignupAttempt(PageState(message, before.loading), None, None)
    case Success(_) =>
      var registration := Registration(email, password, saId);
      match reply
      case Accepted => SignupAttempt(PageState("", false), Some(registration), Some(Navigation(LoginRoute, Some(SignupSuccessMessage))))
      case Rejected(message) => SignupAttempt(PageState(message, false), Some(registration), None)
      case Threw => SignupAttempt(PageState(UnexpectedMessage, false), Some(registration), None)
  }

  /** The length boundary: six code units pass, five do not, and three
      characters outside the Basic Multilingual Plane already make six. */
  lemma PasswordLengthBoundary(saId: string, email: string)
    requires IsValidSAID(saId) && IsValidEmail(email)
    ensures ValidateSignup(saId, email, "abcdef").Success?
    ensures ValidateSignup(saId, email, "abcde") == Failure(SignupPasswordMessage)
    ensures ValidateSignup(saId, email, "\U{1F600}\U{1F600}\U{1F600}").Success?
  {
    assert Utf16Length("abcdef") == 6;
    assert Utf16Length("abcde") == 5;
    assert Utf16Length("\U{1F600}\U{1F600}\U{1F600}") == 6;
  }
}

=== FILE: categories.dfy ===
/** The "Top Expense Categories" panel of the reports page: expenses grouped
    by category (a missing category is labelled "Other"), ranked by a stable
    descending sort, cut to the first five, and shown with a guarded
    percentage of the expense total (src/pages/Reports.jsx). */
module Categories {
  import opened Wrappers
  import opened Records
  import opened Sums
  import opened Reports

  const OtherCategory: string := "Other"
  const TopCount: nat := 5

  /** One `[category, amount]` entry of the grouped object. */
  datatype Bucket = Bucket(category: string, amount: real)

  function BucketAmount(b: Bucket): real {
    b.amount
  }

  /** `t.category || 'Other'`: an absent or empty category reads "Other". */
  function Label(t: Transaction): (c: string)
    ensures c != ""
    ensures t.category.Some? && t.category.value != "" ==> c == t.category.value
    ensures !TruthyText(t.category) ==> c == OtherCategory
  {
    if TruthyText(t.category) then t.category.value else OtherCategory
  }

  predicate Distinct(s: seq<string>) {
    forall i, j :: 0 <= i < j < |s| ==> s[i] != s[j]
  }

  /** A duplicate-free sequence has as many elements as its set. */
  lemma {:induction false} DistinctCardinality(s: seq<string>)
    requires Distinct(s)
    ensures |set x | x in s| == |s|
    decreases |s|
  {
    if |s| > 0 {
      var init := s[..|s| - 1];
      DistinctCardinality(init);
      assert (set x | x in s) == (set x | x in init) + {s[|s| - 1]};
      assert s[|s| - 1] !in init;
    }
  }

  /** The categories of the buckets, in bucket order. */
  function KeySeq(bs: seq<Bucket>): (r: seq<string>)
    ensures |r| == |bs|
    ensures forall i :: 0 <= i < |bs| ==> r[i] == bs[i].category
  {
    if |bs| == 0 then [] else [bs[0].category] + KeySeq(bs[1..])
  }

  /** `acc[c] || 0`: the amount held under `c`, 0 when there is none. */
  function AmountFor(bs: seq<Bucket>, c: string): real {
    if |bs| == 0 then 0.0
    else if bs[0].category == c then bs[0].amount
    else AmountFor(bs[1..], c)
  }

  /** `acc[c] = (acc[c] || 0) + amount`: an existing bucket grows in place;
      a new category is appended after all existing ones. */
  function Deposit(bs: seq<Bucket>, c: string, amount: real): seq<Bucket> {
    if |bs| == 0 then [Bucket(c, amount)]
    else if bs[0].category == c then [Bucket(c, bs[0].amount + amount)] + bs[1..]
    else [bs[0]] + Deposit(bs[1..], c, amount)
  }

  lemma KeySeqCons(b: Bucket, bs: seq<Bucket>)
    ensures KeySeq([b] + bs) == [b.category] + KeySeq(bs)
  {
    assert ([b] + bs)[1..] == bs;
  }

  /** A deposit keeps the existing categories in place and appends a new one
      at the end. */
  lemma {:induction false} DepositKeys(bs: seq<Bucket>, c: string, amount: real)
    ensures KeySeq(Deposit(bs, c, amount)) == if c in KeySeq(bs) then KeySeq(bs) else KeySeq(bs) + [c]
    decreases |bs|
  {
    if |bs| == 0 {
      assert KeySeq(Deposit(bs, c, amount)) == [c];
    } else {
      var head, tail := bs[0], bs[1..];
      assert bs == [head] + tail;
      KeySeqCons(head, tail);
      if head.category == c {
        KeySeqCons(Bucket(c, head.amount + amount), tail);
        assert KeySeq(bs)[0] == c;
      } else {
        var rest := Deposit(tail, c, amount);
        DepositKeys(tail, c, amount);
        KeySeqCons(head, rest);
        assert c in KeySeq(bs) <==> c in KeySeq(tail);
      }
    }
  }

  /** A deposit adds its amount under its own category and nowhere else. */
  lemma {:induction false} DepositAmount(bs: seq<Bucket>, c: string, amount: real, k: string)
    ensures AmountFor(Deposit(bs, c, amount), k) == AmountFor(bs, k) + (if k == c then amount else 0.0)
    decreases |bs|
  {
    if |bs| > 0 && bs[0].category != c {
      DepositAmount(bs[1..], c, amount, k);
      assert Deposit(bs, c, amount)[1..] == Deposit(bs[1..], c, amount);
    }
  }

  /** A deposit raises the sum of all buckets by its amount. */
  lemma {:induction false} DepositSum(bs: seq<Bucket>, c: string, amount: real)
    ensures SumOf(Deposit(bs, c, amount), BucketAmount) == SumOf(bs, BucketAmount) + amount
    decreases |bs|
  {
    if |bs| == 0 {
      SumOfCons(Bucket(c, amount), [], BucketAmount);
    } else {
      assert bs == [bs[0]] + bs[1..];
      SumOfCons(bs[0], bs[1..], BucketAmount);
      if bs[0].category == c {
        SumOfCons(Bucket(c, bs[0].amount + amount), bs[1..], BucketAmount);
      } else {
        DepositSum(bs[1..], c, amount);
        SumOfCons(bs[0], Deposit(bs[1..], c, amount), BucketAmount);
      }
    }
  }

  /** The grouping fold over the expense transactions. */
  function Group(es: seq<Transaction>): seq<Bucket> {
    if |es| == 0 then []
    else
      var last := es[|es| - 1];
      Deposit(Group(es[..|es| - 1]), Label(last), AmountOf(last))
  }

  /** `expensesByCategory`, as a list of entries in insertion order. */
  function ExpensesByCategory(ts: seq<Transaction>): seq<Bucket> {
    Group(OfKind(ts, ExpenseKind))
  }

  /** The category labels of the given transactions, in order. */
  function LabelSeq(es: seq<Transaction>): (r: seq<string>)
    ensures |r| == |es|
    ensures forall i :: 0 <= i < |es| ==> r[i] == Label(es[i])
  {
    seq(|es|, i requires 0 <= i < |es| => Label(es[i]))
  }

  /** The set of distinct category labels of the given transactions. */
  function LabelsOf(es: seq<Transaction>): set<string> {
    set e | e in es :: Label(e)
  }

  /** Reference: each label once, in order of first appearance. */
  function FirstAppearances(labels: seq<string>): seq<string> {
    if |labels| == 0 then []
    else
      var seen := FirstAppearances(labels[..|labels| - 1]);
      var last := labels[|labels| - 1];
      if last in seen then seen else seen + [last]
  }

  /** The first appearances are duplicate-free and are exactly the labels. */
  lemma {:induction false} FirstAppearancesSpec(labels: seq<string>)
    ensures Distinct(FirstAppearances(labels))
    ensures forall x :: x in FirstAppearances(labels) <==> x in labels
    decreases |labels|
  {
    if |labels| > 0 {
      FirstAppearancesSpec(labels[..|labels| - 1]);
      assert labels == labels[..|labels| - 1] + [labels[|labels| - 1]];
    }
  }

  /** Reference: the summed amount of the transactions labelled `c`. */
  function CategoryTotal(es: seq<Transaction>, c: string): real {
    if |es| == 0 then 0.0
    else
      var last := es[|es| - 1];
      CategoryTotal(es[..|es| - 1], c) + (if Label(last) == c then AmountOf(last) else 0.0)
  }

  /** The buckets are the distinct labels in order of first appearance. */
  lemma {:induction false} GroupKeys(es: seq<Transaction>)
    ensures KeySeq(Group(es)) == FirstAppearances(LabelSeq(es))
    decreases |es|
  {
    if |es| > 0 {
      var init, last := es[..|es| - 1], es[|es| - 1];
      var labels := LabelSeq(es);
      GroupKeys(init);
      DepositKeys(Group(init), Label(last), AmountOf(last));
      LabelSeqInit(es);
      assert labels[|labels| - 1] == Label(last);
      assert FirstAppearances(labels) == var seen := FirstAppearances(LabelSeq(init));
        if Label(last) in seen then seen else seen + [Label(last)];
    }
  }

  lemma LabelSeqInit(es: seq<Transaction>)
    requires |es| > 0
    ensures LabelSeq(es)[..|es| - 1] == LabelSeq(es[..|es| - 1])
  {
  }

  /** Each bucket holds the total of the transactions with its label. */
  lemma {:induction false} GroupAmounts(es: seq<Transaction>, c: string)
    ensures AmountFor(Group(es), c) == CategoryTotal(es, c)
    decreases |es|
  {
    if |es| > 0 {
      var init, last := es[..|es| - 1], es[|es| - 1];
      GroupAmounts(init, c);
      DepositAmount(Group(init), Label(last), AmountOf(last), c);
    }
  }

  /** Together the buckets hold the sum of all amounts. */
  lemma {:induction false} GroupSum(es: seq<Transaction>)
    ensures SumOf(Group(es), BucketAmount) == SumOf(es, AmountOf)
    decreases |es|
  {
    if |es| > 0 {
      var init, last := es[..|es| - 1], es[|es| - 1];
      GroupSum(init);
      DepositSum(Group(init), Label(last), AmountOf(last));
    }
  }

  /** Every expense lands in exactly one bucket, the one of its label: the
      buckets are the distinct labels (one per label, in order of first
      appearance), each holds the total of its label, and together they hold
      the expense total. */
  lemma GroupSpec(ts: seq<Transaction>)
    ensures Distinct(KeySeq(ExpensesByCategory(ts)))
    ensures forall c :: c in KeySeq(ExpensesByCategory(ts)) <==> c in LabelsOf(OfKind(ts, ExpenseKind))
    ensures |ExpensesByCategory(ts)| == |LabelsOf(OfKind(ts, ExpenseKind))|
    ensures KeySeq(ExpensesByCategory(ts)) == FirstAppearances(LabelSeq(OfKind(ts, ExpenseKind)))
    ensures forall c :: AmountFor(ExpensesByCategory(ts), c) == CategoryTotal(OfKind(ts, ExpenseKind), c)
    ensures SumOf(ExpensesByCategory(ts), BucketAmount) == TotalExpenses(ts)
  {
    var es := OfKind(ts, ExpenseKind);
    var keys := KeySeq(Group(es));
    GroupKeys(es);
    GroupSum(es);
    FirstAppearancesSpec(LabelSeq(es));
    forall c ensures AmountFor(Group(es), c) == CategoryTotal(es, c) {
      GroupAmounts(es, c);
    }
    forall c ensures c in keys <==> c in LabelsOf(es) {
      if c in LabelsOf(es) {
        var e :| e in es && Label(e) == c;
        var i :| 0 <= i < |es| && es[i] == e;
        assert LabelSeq(es)[i] == c;
      }
    }
    assert (set x | x in keys) == LabelsOf(es);
    DistinctCardinality(keys);
  }

  /** With distinct categories a bucket's amount is the one looked up under
      its own category. */
  lemma {:induction false} AmountForMember(bs: seq<Bucket>, i: int)
    requires Distinct(KeySeq(bs))
    requires 0 <= i < |bs|
    ensures AmountFor(bs, bs[i].category) == bs[i].amount
    decreases i
  {
    if i > 0 {
      assert KeySeq(bs)[0] != KeySeq(bs)[i];
      assert KeySeq(bs[1..]) == KeySeq(bs)[1..];
      AmountForMember(bs[1..], i - 1);
    }
  }

  /** A category total lies between 0 and the sum of all (non-negative)
      amounts. */
  lemma {:induction false} CategoryTotalBounds(es: seq<Transaction>, c: string)
    requires forall i :: 0 <= i < |es| ==> AmountOf(es[i]) >= 0.0
    ensures 0.0 <= CategoryTotal(es, c) <= SumOf(es, AmountOf)
    decreases |es|
  {
    if |es| > 0 {
      CategoryTotalBounds(es[..|es| - 1], c);
    }
  }

  // ----- the stable descending sort -----

  predicate NonIncreasing(bs: seq<Bucket>) {
    forall i, j :: 0 <= i < j < |bs| ==> bs[i].amount >= bs[j].amount
  }

  /** The buckets holding exactly `v`, in their order. */
  function WithAmount(bs: seq<Bucket>, v: real): seq<Bucket> {
    if |bs| == 0 then []
    else (if bs[0].amount == v then [bs[0]] else []) + WithAmount(bs[1..], v)
  }

  lemma {:induction false} WithAmountAppend(a: seq<Bucket>, b: seq<Bucket>, v: real)
    ensures WithAmount(a + b, v) == WithAmount(a, v) + WithAmount(b, v)
    decreases |a|
  {
    if |a| > 0 {
      assert (a + b)[1..] == a[1..] + b;
      WithAmountAppend(a[1..], b, v);
    } else {
      assert a + b == b;
    }
  }

  lemma {:induction false} WithAmountNone(bs: seq<Bucket>, v: real)
    requires forall i :: 0 <= i < |bs| ==> bs[i].amount != v
    ensures WithAmount(bs, v) == []
    decreases |bs|
  {
    if |bs| > 0 {
      WithAmountNone(bs[1..], v);
    }
  }

  /** One insertion step: `x` goes before the first bucket whose amount is
      below its own. */
  function Insert(s: seq<Bucket>, x: Bucket): (r: seq<Bucket>)
    ensures |r| == |s| + 1
  {
    if |s| == 0 then [x]
    else if s[0].amount < x.amount then [x] + s
    else [s[0]] + Insert(s[1..], x)
  }

  lemma {:induction false} InsertPermutes(s: seq<Bucket>, x: Bucket)
    ensures multiset(Insert(s, x)) == multiset(s) + multiset{x}
    decreases |s|
  {
    if |s| > 0 && s[0].amount >= x.amount {
      InsertPermutes(s[1..], x);
      assert s == [s[0]] + s[1..];
      assert Insert(s, x) == [s[0]] + Insert(s[1..], x);
    }
  }

  predicate AllAtMost(bs: seq<Bucket>, m: real) {
    forall i :: 0 <= i < |bs| ==> bs[i].amount <= m
  }

  lemma {:induction false} InsertAtMost(s: seq<Bucket>, x: Bucket, m: real)
    requires AllAtMost(s, m) && x.amount <= m
    ensures AllAtMost(Insert(s, x), m)
    decreases |s|
  {
    if |s| > 0 && s[0].amount >= x.amount {
      InsertAtMost(s[1..], x, m);
      assert Insert(s, x) == [s[0]] + Insert(s[1..], x);
    }
  }

  lemma {:induction false} InsertSorted(s: seq<Bucket>, x: Bucket)
    requires NonIncreasing(s)
    ensures NonIncreasing(Insert(s, x))
    decreases |s|
  {
    if |s| > 0 {
      var head, tail := s[0], s[1..];
      if head.amount < x.amount {
        assert AllAtMost(s, x.amount);
        assert Insert(s, x) == [x] + s;
      } else {
        var rest := Insert(tail, x);
        InsertSorted(tail, x);
        InsertAtMost(tail, x, head.amount);
        assert Insert(s, x) == [head] + rest;
      }
    }
  }

  /** Inserting `x` into a sorted list puts it after the buckets of equal
      amount already there: the order among equal amounts is kept. */
  lemma {:induction false} InsertStable(s: seq<Bucket>, x: Bucket, v: real)
    requires NonIncreasing(s)
    ensures WithAmount(Insert(s, x), v) == WithAmount(s, v) + (if x.amount == v then [x] else [])
    decreases |s|
  {
    if |s| > 0 {
      var head, tail := s[0], s[1..];
      if head.amount < x.amount {
        assert Insert(s, x) == [x] + s;
        WithAmountCons(x, s, v);
        if x.amount == v {
          assert WithAmount(s, v) == [] by {
            WithAmountNone(s, v);
          }
        }
      } else {
        var rest := Insert(tail, x);
        assert Insert(s, x) == [head] + rest;
        assert WithAmount(rest, v) == WithAmount(tail, v) + (if x.amount == v then [x] else []) by {
          InsertStable(tail, x, v);
        }
        WithAmountCons(head, rest, v);
        assert WithAmount(s, v) == (if head.amount == v then [head] else []) + WithAmount(tail, v) by {
          WithAmountCons(head, tail, v);
          assert s == [head] + tail;
        }
      }
    }
  }

  lemma WithAmountCons(b: Bucket, bs: seq<Bucket>, v: real)
    ensures WithAmount([b] + bs, v) == (if b.amount == v then [b] else []) + WithAmount(bs, v)
  {
    assert ([b] + bs)[1..] == bs;
  }

  /** `.sort(([,a], [,b]) => b - a)`: a stable sort by descending amount. */
  function SortDesc(bs: seq<Bucket>): (r: seq<Bucket>)
    ensures |r| == |bs|
  {
    if |bs| == 0 then []
    else Insert(SortDesc(bs[..|bs| - 1]), bs[|bs| - 1])
  }

  lemma {:induction false} SortNonIncreasing(bs: seq<Bucket>)
    ensures NonIncreasing(SortDesc(bs))
    decreases |bs|
  {
    if |bs| > 0 {
      var init := bs[..|bs| - 1];
      SortNonIncreasing(init);
      InsertSorted(SortDesc(init), bs[|bs| - 1]);
    }
  }

  lemma {:induction false} SortPermutes(bs: seq<Bucket>)
    ensures multiset(SortDesc(bs)) == multiset(bs)
    decreases |bs|
  {
    if |bs| > 0 {
      var init, last := bs[..|bs| - 1], bs[|bs| - 1];
      SortPermutes(init);
      InsertPermutes(SortDesc(init), last);
      assert bs == init + [last];
    }
  }

  /** The sort orders by non-increasing amount and is a permutation. */
  lemma SortSorted(bs: seq<Bucket>)
    ensures NonIncreasing(SortDesc(bs))
    ensures multiset(SortDesc(bs)) == multiset(bs)
  {
    SortNonIncreasing(bs);
    SortPermutes(bs);
  }

  /** The sort keeps buckets of equal amount in their input order. */
  lemma {:induction false} SortStable(bs: seq<Bucket>, v: real)
    ensures WithAmount(SortDesc(bs), v) == WithAmount(bs, v)
    decreases |bs|
  {
    if |bs| > 0 {
      var init, last := bs[..|bs| - 1], bs[|bs| - 1];
      var sorted := SortDesc(init);
      assert SortDesc(bs) == Insert(sorted, last);
      SortStable(init, v);
      SortNonIncreasing(init);
      InsertStable(sorted, last, v);
      WithAmountAppend(init, [last], v);
      WithAmountCons(last, [], v);
      assert [last] + [] == [last];
      assert bs == init + [last];
    }
  }

  /** The sort orders by non-increasing amount, is a permutation, and keeps
      buckets of equal amount in their input order. */
  lemma SortSpec(bs: seq<Bucket>)
    ensures NonIncreasing(SortDesc(bs))
    ensures multiset(SortDesc(bs)) == multiset(bs)
    ensures |SortDesc(bs)| == |bs|
    ensures forall v :: WithAmount(SortDesc(bs), v) == WithAmount(bs, v)
  {
    SortSorted(bs);
    forall v ensures WithAmount(SortDesc(bs), v) == WithAmount(bs, v) {
      SortStable(bs, v);
    }
  }

  lemma {:induction false} WithAmountMember(bs: seq<Bucket>, v: real, x: Bucket)
    requires x in WithAmount(bs, v)
    ensures x in bs && x.amount == v
    decreases |bs|
  {
    if bs[0].amount == v && x == bs[0] {
    } else {
      WithAmountMember(bs[1..], v, x);
    }
  }

  lemma WithAmountHead(bs: seq<Bucket>)
    requires |bs| > 0
    ensures WithAmount(bs, bs[0].amount) == [bs[0]] + WithAmount(bs[1..], bs[0].amount)
  {
  }

  /** Two sorted lists that agree on the buckets of every amount are equal. */
  lemma {:induction false} SortedAgreementIsEquality(r1: seq<Bucket>, r2: seq<Bucket>)
    requires NonIncreasing(r1) && NonIncreasing(r2)
    requires forall v :: WithAmount(r1, v) == WithAmount(r2, v)
    ensures r1 == r2
    decreases |r1|
  {
    if |r1| == 0 && |r2| > 0 {
      WithAmountHead(r2);
    } else if |r2| == 0 && |r1| > 0 {
      WithAmountHead(r1);
    } else if |r1| > 0 {
      var m1, m2 := r1[0].amount, r2[0].amount;
      WithAmountHead(r1);
      WithAmountHead(r2);
      assert r1[0] in WithAmount(r2, m1);
      WithAmountMember(r2, m1, r1[0]);
      assert r2[0] in WithAmount(r1, m2);
      WithAmountMember(r1, m2, r2[0]);
      assert m1 == m2;
      assert WithAmount(r1, m1) == WithAmount(r2, m1);
      assert WithAmount(r1, m1)[0] == r1[0];
      assert WithAmount(r2, m1)[0] == r2[0];
      forall v ensures WithAmount(r1[1..], v) == WithAmount(r2[1..], v) {
        var head := if r1[0].amount == v then [r1[0]] else [];
        assert WithAmount(r1, v) == head + WithAmount(r1[1..], v);
        assert WithAmount(r2, v) == head + WithAmount(r2[1..], v);
        assert WithAmount(r1, v) == WithAmount(r2, v);
        assert WithAmount(r1[1..], v) == WithAmount(r1, v)[|head|..];
        assert WithAmount(r2[1..], v) == WithAmount(r2, v)[|head|..];
      }
      SortedAgreementIsEquality(r1[1..], r2[1..]);
      assert r1 == [r1[0]] + r1[1..] && r2 == [r2[0]] + r2[1..];
    }
  }

  /** A stable descending sort has only one possible result: any ordering
      that is non-increasing and keeps equal amounts in input order is the
      one `SortDesc` computes, whichever stable algorithm produced it. */
  lemma StableSortIsUnique(bs: seq<Bucket>, r: seq<Bucket>)
    requires NonIncreasing(r)
    requires forall v :: WithAmount(r, v) == WithAmount(bs, v)
    ensures r == SortDesc(bs)
  {
    SortSpec(bs);
    SortedAgreementIsEquality(r, SortDesc(bs));
  }

  function Min(a: int, b: int): int {
    if a < b then a else b
  }

  /** `topExpenseCategories`: the sorted entries cut to the first five. */
  function TopExpenseCategories(ts: seq<Transaction>): seq<Bucket> {
    var sorted := SortDesc(ExpensesByCategory(ts));
    sorted[..Min(TopCount, |sorted|)]
  }

  /** The first `n` elements of a sorted list that holds `b` outside them
      all reach at least `b`'s amount. */
  lemma PrefixDominates(sorted: seq<Bucket>, n: nat, b: Bucket, x: Bucket)
    requires NonIncreasing(sorted)
    requires n <= |sorted|
    requires b in sorted && b !in sorted[..n]
    requires x in sorted[..n]
    ensures b.amount <= x.amount
  {
    var j :| 0 <= j < |sorted| && sorted[j] == b;
    var i :| 0 <= i < n && sorted[..n][i] == x;
  }

  /** The ranking has at most five entries, one per distinct expense
      category, in non-increasing order. */
  lemma TopShape(ts: seq<Transaction>)
    ensures |TopExpenseCategories(ts)| == Min(TopCount, |LabelsOf(OfKind(ts, ExpenseKind))|)
    ensures NonIncreasing(TopExpenseCategories(ts))
  {
    var g := ExpensesByCategory(ts);
    var sorted := SortDesc(g);
    GroupSpec(ts);
    SortSorted(g);
    assert TopExpenseCategories(ts) == sorted[..Min(TopCount, |sorted|)];
  }

  /** Every entry of the ranking is a real bucket carrying its category's
      total. */
  lemma TopEntries(ts: seq<Transaction>)
    ensures forall i :: 0 <= i < |TopExpenseCategories(ts)| ==>
      TopExpenseCategories(ts)[i] in ExpensesByCategory(ts)
    ensures forall i :: 0 <= i < |TopExpenseCategories(ts)| ==>
      TopExpenseCategories(ts)[i].amount == CategoryTotal(OfKind(ts, ExpenseKind), TopExpenseCategories(ts)[i].category)
  {
    var es := OfKind(ts, ExpenseKind);
    var g := ExpensesByCategory(ts);
    var sorted := SortDesc(g);
    var top := sorted[..Min(TopCount, |sorted|)];
    assert top == TopExpenseCategories(ts);
    GroupSpec(ts);
    SortSorted(g);
    forall i | 0 <= i < |top|
      ensures top[i] in g
      ensures top[i].amount == CategoryTotal(es, top[i].category)
    {
      assert top[i] == sorted[i];
      assert top[i] in multiset(g);
      var k :| 0 <= k < |g| && g[k] == top[i];
      AmountForMember(g, k);
      GroupAmounts(es, top[i].category);
    }
  }

  /** A category left out of the ranking holds no more than any category
      shown. */
  lemma TopDominance(ts: seq<Transaction>)
    ensures forall b, x :: b in ExpensesByCategory(ts) && b !in TopExpenseCategories(ts) && x in TopExpenseCategories(ts) ==>
      b.amount <= x.amount
  {
    var g := ExpensesByCategory(ts);
    var sorted := SortDesc(g);
    var n := Min(TopCount, |sorted|);
    var top := sorted[..n];
    assert top == TopExpenseCategories(ts);
    SortSorted(g);
    forall b, x | b in g && b !in top && x in top
      ensures b.amount <= x.amount
    {
      assert b in multiset(sorted);
      PrefixDominates(sorted, n, b, x);
    }
  }

  /** The ranking: at most five entries, one per distinct expense category,
      in non-increasing order; every entry is a real bucket carrying its
      category's total; and a category left out holds no more than any
      category shown. */
  lemma TopSpec(ts: seq<Transaction>)
    ensures |TopExpenseCategories(ts)| == Min(TopCount, |LabelsOf(OfKind(ts, ExpenseKind))|)
    ensures NonIncreasing(TopExpenseCategories(ts))
    ensures forall i :: 0 <= i < |TopExpenseCategories(ts)| ==>
      TopExpenseCategories(ts)[i] in ExpensesByCategory(ts)
    ensures forall i :: 0 <= i < |TopExpenseCategories(ts)| ==>
      TopExpenseCategories(ts)[i].amount == CategoryTotal(OfKind(ts, ExpenseKind), TopExpenseCategories(ts)[i].category)
    ensures forall b, x :: b in ExpensesByCategory(ts) && b !in TopExpenseCategories(ts) && x in TopExpenseCategories(ts) ==>
      b.amount <= x.amount
  {
    TopShape(ts);
    TopEntries(ts);
    TopDominance(ts);
  }

  /** Among categories of equal amount the ranking keeps first-appearance
      order: the buckets of any one amount come out in grouping order. */
  lemma RankingIsStable(ts: seq<Transaction>, v: real)
    ensures WithAmount(SortDesc(ExpensesByCategory(ts)), v) == WithAmount(ExpensesByCategory(ts), v)
  {
    SortSpec(ExpensesByCategory(ts));
  }

  /** `totalExpenses > 0 ? (amount / totalExpenses) * 100 : 0` */
  function Percentage(amount: real, total: real): (p: real)
    ensures total <= 0.0 ==> p == 0.0
    ensures total > 0.0 ==> p * total == amount * 100.0
  {
    if total > 0.0 then amount / total * 100.0 else 0.0
  }

  /** With non-negative amounts every listed percentage lies in [0, 100]. */
  lemma TopPercentagesBounded(ts: seq<Transaction>)
    requires forall i :: 0 <= i < |ts| ==> AmountOf(ts[i]) >= 0.0
    ensures forall b :: b in TopExpenseCategories(ts) ==>
      0.0 <= Percentage(b.amount, TotalExpenses(ts)) <= 100.0
  {
    var es := OfKind(ts, ExpenseKind);
    var top := TopExpenseCategories(ts);
    var total := TotalExpenses(ts);
    TopEntries(ts);
    OfKindMembers(ts, ExpenseKind);
    forall i | 0 <= i < |es| ensures AmountOf(es[i]) >= 0.0 {
      assert es[i] in ts;
    }
    forall b | b in top
      ensures 0.0 <= Percentage(b.amount, total) <= 100.0
    {
      CategoryTotalBounds(es, b.category);
      PercentageBounded(b.amount, total);
    }
  }

  lemma PercentageBounded(amount: real, total: real)
    requires 0.0 <= amount <= total
    ensures 0.0 <= Percentage(amount, total) <= 100.0
  {
    if total > 0.0 {
      var p := Percentage(amount, total);
      DivideByPositive(p, total);
      DivideByPositive(p - 100.0, total);
      assert (p - 100.0) * total == (amount - total) * 100.0;
    }
  }
}

=== FILE: data_table.dfy ===
/** The generic table component (src/components/DataTable.jsx): one header
    per column, one row per data element, one cell per column, each cell
    with a colour class from the value and a content from the column's
    `render` override or from its type. */
module DataTable {
  import opened Wrappers

  /** A cell value as read from a row object. */
  datatype Value = Number(n: real) | Text(s: string) | Missing

  type Row = map<string, Value>

  /** What a cell displays: the value passed to the currency or date
      formatter, the raw value, or the string a custom renderer produced. */
  datatype Content = CurrencyText(v: Value) | DateText(v: Value) | Raw(v: Value) | Custom(text: string)

  /** A column description; `render`, when present, is called with the cell
      value and the whole row. */
  datatype Column = Column(header: string, key: string, colType: string, render: Option<(Value, Row) -> string>)

  datatype Cell = Cell(className: string, content: Content)

  const CurrencyType: string := "currency"
  const DateType: string := "date"
  const PositiveClass: string := "text-green-600 font-semibold"
  const NegativeClass: string := "text-red-600 font-semibold"
  const ZeroClass: string := "text-gray-600"
  const PlainClass: string := "text-gray-800"

  /** `row[column.key]`: a missing key reads `undefined`. */
  function Lookup(row: Row, key: string): (v: Value)
    ensures key !in row ==> v == Missing
    ensures key in row ==> v == row[key]
  {
    if key in row then row[key] else Missing
  }

  /** `formatCellValue`: currency and date values go to their formatter,
      anything else is shown unchanged. */
  function FormatCellValue(v: Value, colType: string): (c: Content)
    ensures colType == CurrencyType ==> c == CurrencyText(v)
    ensures colType == DateType ==> c == DateText(v)
    ensures colType != CurrencyType && colType != DateType ==> c == Raw(v)
  {
    if colType == CurrencyType then CurrencyText(v)
    else if colType == DateType then DateText(v)
    else Raw(v)
  }

  /** `getCellClassName`: only currency cells are coloured, by sign. */
  function CellClassName(v: Value, colType: string): (cls: string)
    ensures colType != CurrencyType ==> cls == PlainClass
    ensures colType == CurrencyType ==> (cls == PositiveClass <==> v.Number? && v.n > 0.0)
    ensures colType == CurrencyType ==> (cls == NegativeClass <==> v.Number? && v.n < 0.0)
    ensures colType == CurrencyType ==> (cls == ZeroClass <==> !(v.Number? && v.n != 0.0))
  {
    if colType == CurrencyType then
      if v.Number? && v.n > 0.0 then PositiveClass
      else if v.Number? && v.n < 0.0 then NegativeClass
      else ZeroClass
    else PlainClass
  }

  /** One `<td>`: the class comes from the value and type; the content from
      `render` when the column has one, otherwise from the type. */
  function RenderCell(row: Row, column: Column): (cell: Cell)
    ensures cell.className == CellClassName(Lookup(row, column.key), column.colType)
    ensures column.render.Some? ==> cell.content == Custom(column.render.value(Lookup(row, column.key), row))
    ensures column.render.None? ==> cell.content == FormatCellValue(Lookup(row, column.key), column.colType)
  {
    var v := Lookup(row, column.key);
    Cell(CellClassName(v, column.colType),
         if column.render.Some? then Custom(column.render.value(v, row)) else FormatCellValue(v, column.colType))
  }

  datatype Table = Table(headers: seq<string>, rows: seq<seq<Cell>>)

  /** The whole table: headers in column order, and for each data element
      in order a row of one cell per column in order. */
  function RenderTable(columns: seq<Column>, data: seq<Row>): (t: Table)
    ensures |t.headers| == |columns|
    ensures forall j :: 0 <= j < |columns| ==> t.headers[j] == columns[j].header
    ensures |t.rows| == |data|
    ensures forall i :: 0 <= i < |data| ==> |t.rows[i]| == |columns|
    ensures forall i, j :: 0 <= i < |data| && 0 <= j < |columns| ==> t.rows[i][j] == RenderCell(data[i], columns[j])
  {
    Table(
      seq(|columns|, j requires 0 <= j < |columns| => columns[j].header),
      seq(|data|, i requires 0 <= i < |data| =>
        seq(|columns|, j requires 0 <= j < |columns| => RenderCell(data[i], columns[j]))))
  }

  /** A custom renderer replaces the type-based content but never changes
      the colour class, and a non-currency column is grey-black whatever its
      value. */
  lemma RenderOverridesContentOnly(row: Row, column: Column, f: (Value, Row) -> string)
    ensures RenderCell(row, column.(render := Some(f))).className == RenderCell(row, column.(render := None)).className
    ensures RenderCell(row, column.(render := Some(f))).content.Custom?
    ensures column.colType != CurrencyType ==> RenderCell(row, column).className == PlainClass
  {
  }
}

=== FILE: hooks.dfy ===
/** The entity data hooks (src/hooks/useFinancialData.js) with the React
    plumbing stripped: each hook is a state `{list, loading, error}` and each
    fetch or mutation is one atomic transition driven by the store's reply. */
module Hooks {
  import opened Wrappers
  import opened Records

  /** `useState([])`, `useState(true)`, `useState(null)` of one hook. */
  datatype HookState<T> = HookState(list: seq<T>, loading: bool, error: Option<string>)

  /** A store reply to a list query: rows (possibly `null`) or a message. */
  type ListReply<T> = Result<Option<seq<T>>, string>

  /** A store reply to a create or update: the stored row or a message. */
  type RowReply<T> = Result<T, string>

  /** What a mutation hands back to its caller: `{ data, error }`. */
  datatype MutationOutcome<T> = MutationOutcome(data: Option<T>, error: Option<string>)

  function Initial<T>(): (st: HookState<T>)
    ensures st.list == [] && st.loading && st.error.None?
  {
    HookState([], true, None)
  }

  // ----- when a fetch is issued -----

  /** The effect's dependency list: the signed-in user, and for transactions
      the type filter (`None` for the other hooks). */
  datatype Deps = Deps(user: Option<string>, filter: Option<string>)

  /** The effect runs on mount and whenever a dependency changes; it fetches
      only when a user is signed in. */
  predicate IssuesFetch(previous: Option<Deps>, current: Deps) {
    (previous.None? || previous.value != current) && current.user.Some?
  }

  /** No fetch without a user; with a user, a fetch on mount, on a change of
      user and on a change of filter, and none when nothing changed. */
  lemma FetchTriggers(previous: Option<Deps>, current: Deps)
    ensures current.user.None? ==> !IssuesFetch(previous, current)
    ensures current.user.Some? && previous.None? ==> IssuesFetch(previous, current)
    ensures current.user.Some? && previous.Some? && previous.value.user != current.user ==> IssuesFetch(previous, current)
    ensures current.user.Some? && previous.Some? && previous.value.filter != current.filter ==> IssuesFetch(previous, current)
    ensures previous == Some(current) ==> !IssuesFetch(previous, current)
  {
  }

  /** React's own rule for an effect with dependencies `[user, type]`: it
      runs on mount, and afterwards when some dependency differs from the
      value it had at the previous render, compared one by one. */
  predicate EffectRuns(previous: Option<Deps>, current: Deps) {
    previous.None? || previous.value.user != current.user || previous.value.filter != current.filter
  }

  /** The fetch decision is the effect firing with a signed-in user. */
  lemma IssuesFetchIsGuardedEffect(previous: Option<Deps>, current: Deps)
    ensures IssuesFetch(previous, current) <==> EffectRuns(previous, current) && current.user.Some?
  {
  }

  // ----- fetch -----

  /** `setLoading(true)` at the start of a fetch. */
  function BeginFetch<T>(st: HookState<T>): (r: HookState<T>)
    ensures r.loading && r.list == st.list && r.error == st.error
  {
    st.(loading := true)
  }

  /** The `try`/`catch`/`finally` after the store replied. */
  function CompleteFetch<T>(st: HookState<T>, reply: ListReply<T>): HookState<T> {
    match reply
    case Success(data) => st.(list := data.GetOr([]), loading := false)
    case Failure(message) => st.(error := Some(message), loading := false)
  }

  /** A whole fetch: a success replaces the list (`[]` for `null` data) and
      leaves the error alone; a failure records its message and keeps the
      list; either way loading ends false. */
  function Fetch<T>(st: HookState<T>, reply: ListReply<T>): (r: HookState<T>)
    ensures !r.loading
    ensures reply.Success? && reply.value.Some? ==> r.list == reply.value.value
    ensures reply.Success? && reply.value.None? ==> r.list == []
    ensures reply.Success? ==> r.error == st.error
    ensures reply.Failure? ==> r.list == st.list && r.error == Some(reply.error)
  {
    CompleteFetch(BeginFetch(st), reply)
  }

  /** A change of dependencies: fetch when the effect fires, otherwise stay. */
  function OnDepsChange<T>(st: HookState<T>, previous: Option<Deps>, current: Deps, reply: ListReply<T>): (r: HookState<T>)
    ensures current.user.None? ==> r == st
    ensures previous == Some(current) ==> r == st
    ensures EffectRuns(previous, current) && current.user.Some? ==> !r.loading
    ensures EffectRuns(previous, current) && current.user.Some? && reply.Success? ==>
      r.list == (if reply.value.Some? then reply.value.value else [])
    ensures EffectRuns(previous, current) && current.user.Some? && reply.Success? ==> r.error == st.error
    ensures EffectRuns(previous, current) && current.user.Some? && reply.Failure? ==>
      r.list == st.list && r.error == Some(reply.error)
  {
    IssuesFetchIsGuardedEffect(previous, current);
    if IssuesFetch(previous, current) then Fetch(st, reply) else st
  }

  /** Signing out issues no fetch and clears nothing: the previous user's
      list and error stay in the hook. */
  lemma SignOutKeepsStaleState<T>(st: HookState<T>, previous: Deps, reply: ListReply<T>)
    requires previous.user.Some?
    ensures OnDepsChange(st, Some(previous), previous.(user := None), reply) == st
  {
  }

  // ----- mutations -----

  /** `addTransaction` / `addGoal`: on success the new row goes first and is
      returned with a null error; on failure nothing changes and the message
      is returned with null data. */
  function Add<T>(st: HookState<T>, reply: RowReply<T>): (r: (HookState<T>, MutationOutcome<T>))
    ensures reply.Success? ==> |r.0.list| == |st.list| + 1 && r.0.list[0] == reply.value && r.0.list[1..] == st.list
    ensures reply.Success? ==> r.1 == MutationOutcome(Some(reply.value), None)
    ensures reply.Failure? ==> r.0 == st && r.1 == MutationOutcome(None, Some(reply.error))
    ensures r.0.loading == st.loading && r.0.error == st.error
  {
    match reply
    case Success(row) => (st.(list := [row] + st.list), MutationOutcome(Some(row), None))
    case Failure(message) => (st, MutationOutcome(None, Some(message)))
  }

  /** `prev.map(goal => goal.id === id ? data : goal)`. */
  function ReplaceById(goals: seq<Goal>, id: string, row: Goal): (r: seq<Goal>)
    ensures |r| == |goals|
    ensures forall i :: 0 <= i < |goals| && goals[i].id != id ==> r[i] == goals[i]
    ensures forall i :: 0 <= i < |goals| && goals[i].id == id ==> r[i] == row
  {
    seq(|goals|, i requires 0 <= i < |goals| => if goals[i].id == id then row else goals[i])
  }

  /** `updateGoal`: on success every goal with the id is replaced by the
      returned row; on failure nothing changes. */
  function UpdateGoal(st: HookState<Goal>, id: string, reply: RowReply<Goal>): (r: (HookState<Goal>, MutationOutcome<Goal>))
    ensures reply.Success? ==> r.0.list == ReplaceById(st.list, id, reply.value)
    ensures reply.Success? ==> r.1 == MutationOutcome(Some(reply.value), None)
    ensures reply.Failure? ==> r.0 == st && r.1 == MutationOutcome(None, Some(reply.error))
    ensures r.0.loading == st.loading && r.0.error == st.error
  {
    match reply
    case Success(row) => (st.(list := ReplaceById(st.list, id, row)), MutationOutcome(Some(row), None))
    case Failure(message) => (st, MutationOutcome(None, Some(message)))
  }

  /** An update of an id that no goal carries changes nothing, and an update
      whose returned row keeps the id is idempotent. */
  lemma ReplaceByIdLaws(goals: seq<Goal>, id: string, row: Goal)
    ensures (forall i :: 0 <= i < |goals| ==> goals[i].id != id) ==> ReplaceById(goals, id, row) == goals
    ensures row.id == id ==> ReplaceById(ReplaceById(goals, id, row), id, row) == ReplaceById(goals, id, row)
  {
  }

  // ----- runs of events -----

  /** One thing that can happen to a hook. */
  datatype Event<T> = Fetched(reply: ListReply<T>) | Added(row: RowReply<T>)

  function Step<T>(st: HookState<T>, e: Event<T>): HookState<T> {
    match e
    case Fetched(reply) => Fetch(st, reply)
    case Added(row) => Add(st, row).0
  }

  function Run<T>(st: HookState<T>, events: seq<Event<T>>): HookState<T> {
    if |events| == 0 then st
    else Step(Run(st, events[..|events| - 1]), events[|events| - 1])
  }

  /** Nothing ever calls `setError(null)`: once a fetch has failed, the error
      stays set through every later fetch and mutation, successful or not. */
  lemma {:induction false} ErrorIsNeverCleared<T>(st: HookState<T>, events: seq<Event<T>>)
    requires st.error.Some?
    ensures Run(st, events).error.Some?
    decreases |events|
  {
    if |events| > 0 {
      ErrorIsNeverCleared(st, events[..|events| - 1]);
    }
  }

  /** A hook that starts without an error gets one exactly when some fetch
      in the run has failed; failed mutations never set it. */
  lemma {:induction false} ErrorOnlyFromFetch<T>(st: HookState<T>, events: seq<Event<T>>)
    requires st.error.None?
    ensures Run(st, events).error.Some? <==>
      exists i :: 0 <= i < |events| && events[i].Fetched? && events[i].reply.Failure?
    decreases |events|
  {
    if |events| > 0 {
      var init := events[..|events| - 1];
      ErrorOnlyFromFetch(st, init);
      assert forall i :: 0 <= i < |init| ==> init[i] == events[i];
    }
  }

  /** A freshly mounted hook shows an error after a run exactly when some
      fetch in it failed. */
  lemma FreshHookErrorOnlyFromFetch<T>(events: seq<Event<T>>)
    ensures Run(Initial<T>(), events).error.Some? <==>
      exists i :: 0 <= i < |events| && events[i].Fetched? && events[i].reply.Failure?
  {
    ErrorOnlyFromFetch(Initial<T>(), events);
  }

  /** The list changes only through successful fetches and adds: a run of
      failed events leaves it as it was. */
  lemma {:induction false} FailuresKeepList<T>(st: HookState<T>, events: seq<Event<T>>)
    requires forall i :: 0 <= i < |events| ==>
      (events[i].Fetched? && events[i].reply.Failure?) || (events[i].Added? && events[i].row.Failure?)
    ensures Run(st, events).list == st.list
    decreases |events|
  {
    if |events| > 0 {
      FailuresKeepList(st, events[..|events| - 1]);
    }
  }

  // ----- the joint tax fetch -----

  /** `useTaxData`: tax records and this year's deduction entries. */
  datatype TaxState = TaxState(records: seq<TaxRecord>, deductions: seq<Deduction>, loading: bool, error: Option<string>)

  /** Both queries complete, then the tax-records error is checked first and
      the deductions error second; only when neither failed are both lists
      replaced. */
  function FetchTaxData(st: TaxState, taxReply: ListReply<TaxRecord>, deductionReply: ListReply<Deduction>): (r: TaxState)
    ensures !r.loading
    ensures taxReply.Failure? || deductionReply.Failure? ==> r.records == st.records && r.deductions == st.deductions
    ensures taxReply.Failure? ==> r.error == Some(taxReply.error)
    ensures taxReply.Success? && deductionReply.Failure? ==> r.error == Some(deductionReply.error)
    ensures taxReply.Success? && deductionReply.Success? ==>
      r.records == taxReply.value.GetOr([]) && r.deductions == deductionReply.value.GetOr([]) && r.error == st.error
  {
    if taxReply.Failure? then st.(error := Some(taxReply.error), loading := false)
    else if deductionReply.Failure? then st.(error := Some(deductionReply.error), loading := false)
    else st.(records := taxReply.value.GetOr([]), deductions := deductionReply.value.GetOr([]), loading := false)
  }

  /** The joint fetch against two independent hooks, one per table, each
      fetching its own reply: when both replies succeed the lists agree with
      the separate fetches; the joint error is set exactly when one of the
      separate hooks would show an error; and when only the deductions
      query fails, a separate records hook would have taken its rows while
      the joint fetch keeps the old ones. */
  lemma TaxFetchAgainstSeparateFetches(st: TaxState, taxReply: ListReply<TaxRecord>, deductionReply: ListReply<Deduction>)
    ensures taxReply.Success? && deductionReply.Success? ==>
      FetchTaxData(st, taxReply, deductionReply).records == Fetch(HookState(st.records, st.loading, st.error), taxReply).list &&
      FetchTaxData(st, taxReply, deductionReply).deductions == Fetch(HookState(st.deductions, st.loading, st.error), deductionReply).list
    ensures FetchTaxData(st, taxReply, deductionReply).error.Some? <==>
      Fetch(HookState(st.records, st.loading, st.error), taxReply).error.Some? ||
      Fetch(HookState(st.deductions, st.loading, st.error), deductionReply).error.Some?
    ensures taxReply.Success? && deductionReply.Failure? ==>
      FetchTaxData(st, taxReply, deductionReply).records == st.records &&
      Fetch(HookState(st.records, st.loading, st.error), taxReply).list == taxReply.value.GetOr([])
  {
  }

  /** The joint fetch never updates one list without the other. */
  lemma TaxListsMoveTogether(st: TaxState, taxReply: ListReply<TaxRecord>, deductionReply: ListReply<Deduction>)
    ensures FetchTaxData(st, taxReply, deductionReply).records != st.records ==>
      FetchTaxData(st, taxReply, deductionReply).deductions == deductionReply.value.GetOr([])
    ensures FetchTaxData(st, taxReply, deductionReply).deductions != st.deductions ==>
      FetchTaxData(st, taxReply, deductionReply).records == taxReply.value.GetOr([])
  {
  }
}

=== FILE: pages.dfy ===
/** The display derivations of the Tax, Budget and Insurance pages: each
    row of their tables as a list of cells. A cell holds the value handed to
    the currency or date formatter, or the literal text shown. */
module Pages {
  import opened Wrappers
  import opened Records
  import opened Text

  /** One table cell before locale formatting. */
  datatype Cell =
    | Money(amount: real)          // formatCurrency(amount)
    | NegatedMoney(amount: real)   // "-" followed by formatCurrency(amount)
    | DateText(date: string)       // formatDate(date)
    | Plain(text: string)          // shown as is

  const GreenBadge: string := "bg-green-100 text-green-800"
  const BlueBadge: string := "bg-blue-100 text-blue-800"
  const YellowBadge: string := "bg-yellow-100 text-yellow-800"
  const RedBadge: string := "bg-red-100 text-red-800"
  const GreyBadge: string := "bg-gray-100 text-gray-800"

  /** `x > 0` on a column that may be null or missing (both compare false). */
  predicate Positive(x: Option<real>) {
    x.Some? && x.value > 0.0
  }

  /** A date column: formatted when set, otherwise the given fallback. */
  function DateOr(d: Option<string>, fallback: string): (c: Cell)
    ensures TruthyText(d) ==> c == DateText(d.value)
    ensures !TruthyText(d) ==> c == Plain(fallback)
  {
    if TruthyText(d) then DateText(d.value) else Plain(fallback)
  }

  // ----- Tax -----

  /** `getStatusColor` of the Tax page. */
  function TaxStatusColor(status: string): (cls: string)
    ensures status == "assessed" ==> cls == GreenBadge
    ensures status == "submitted" ==> cls == BlueBadge
    ensures status == "pending" ==> cls == YellowBadge
    ensures cls == GreyBadge <==> status != "assessed" && status != "submitted" && status != "pending"
  {
    match status
    case "assessed" => GreenBadge
    case "submitted" => BlueBadge
    case "pending" => YellowBadge
    case "closed" => GreyBadge
    case _ => GreyBadge
  }

  /** The Refund/Owing cell: a positive refund wins, then a positive amount
      owing shown negated, and otherwise "In Progress". */
  function RefundOrOwing(rec: TaxRecord): (c: Cell)
    ensures c.Money? <==> Positive(rec.refundAmount)
    ensures c.Money? ==> c.amount == rec.refundAmount.value && c.amount > 0.0
    ensures c.NegatedMoney? <==> !Positive(rec.refundAmount) && Positive(rec.amountOwing)
    ensures c.NegatedMoney? ==> c.amount == rec.amountOwing.value && c.amount > 0.0
    ensures c.Plain? <==> !Positive(rec.refundAmount) && !Positive(rec.amountOwing)
    ensures c.Plain? ==> c.text == "In Progress"
  {
    if Positive(rec.refundAmount) then Money(rec.refundAmount.value)
    else if Positive(rec.amountOwing) then NegatedMoney(rec.amountOwing.value)
    else Plain("In Progress")
  }

  /** A tax-record row: the tax year with its "Current Year"/"Filed" label,
      then six cells: taxable income, tax payable and deductions claimed
      (absent as 0), the refund/owing cell, the status label (with its badge)
      and the submission date or '-'. The clock's year is a parameter. */
  datatype TaxRow = TaxRow(year: int, yearLabel: string, cells: seq<Cell>, statusBadge: string)

  function TaxRecordRow(rec: TaxRecord, currentYear: int): (row: TaxRow)
    ensures row.year == rec.taxYear
    ensures row.yearLabel == "Current Year" <==> rec.taxYear == currentYear
    ensures row.yearLabel == "Filed" <==> rec.taxYear != currentYear
    ensures |row.cells| == 6
    ensures row.cells[0] == Money(OrZero(rec.taxableIncome))
    ensures row.cells[1] == Money(OrZero(rec.taxPayable))
    ensures row.cells[2] == Money(OrZero(rec.deductionsClaimed))
    ensures row.cells[3] == RefundOrOwing(rec)
    ensures row.cells[4].Plain? && |row.cells[4].text| == |rec.sarsStatus|
    ensures |rec.sarsStatus| > 0 ==>
      (row.cells[4].text[0] == Upper(rec.sarsStatus[0]) && row.cells[4].text[1..] == rec.sarsStatus[1..])
    ensures row.cells[5] == DateOr(rec.submissionDate, "-")
    ensures row.statusBadge == TaxStatusColor(rec.sarsStatus)
  {
    TaxRow(rec.taxYear, if rec.taxYear == currentYear then "Current Year" else "Filed",
      [ Money(OrZero(rec.taxableIncome)),
        Money(OrZero(rec.taxPayable)),
        Money(OrZero(rec.deductionsClaimed)),
        RefundOrOwing(rec),
        Plain(Capitalize(rec.sarsStatus)),
        DateOr(rec.submissionDate, "-") ],
      TaxStatusColor(rec.sarsStatus))
  }

  /** When a record carries both a refund and an amount owing, only the
      refund is shown. */
  lemma RefundHidesOwing(rec: TaxRecord, currentYear: int)
    requires Positive(rec.refundAmount) && Positive(rec.amountOwing)
    ensures TaxRecordRow(rec, currentYear).cells[3] == Money(rec.refundAmount.value)
  {
  }

  /** The clock reaches the row only through the year label: two renderings
      of one record at different dates differ in nothing else. */
  lemma TaxRowClockOnlyLabel(rec: TaxRecord, year1: int, year2: int)
    ensures TaxRecordRow(rec, year1).(yearLabel := "") == TaxRecordRow(rec, year2).(yearLabel := "")
    ensures TaxRecordRow(rec, year1).yearLabel != TaxRecordRow(rec, year2).yearLabel <==>
      (rec.taxYear == year1) != (rec.taxYear == year2)
  {
  }

  /** `deduction.annual_limit ? annual_limit - (ytd_amount || 0) : null` */
  function Remaining(d: Deduction): (r: Option<real>)
    ensures r.Some? <==> Truthy(d.annualLimit)
    ensures r.Some? ==> r.value + OrZero(d.ytdAmount) == d.annualLimit.value
  {
    if Truthy(d.annualLimit) then Some(d.annualLimit.value - OrZero(d.ytdAmount)) else None
  }

  /** `Math.max(0, remaining)`. */
  function ClampAtZero(x: real): (r: real)
    ensures r >= 0.0 && r >= x
    ensures r == x || r == 0.0
  {
    if x > 0.0 then x else 0.0
  }

  /** A deductions-tracker row: the formatted type, the year-to-date amount
      (absent as 0), the limit or "No Limit", the remaining amount clamped at
      zero or '-', and the last entry date or '-'. */
  function DeductionRow(d: Deduction): (cells: seq<Cell>)
    ensures |cells| == 5
    ensures cells[0] == Plain(SnakeToTitle(d.deductionType))
    ensures cells[1] == Money(OrZero(d.ytdAmount))
    ensures cells[2] == if Truthy(d.annualLimit) then Money(d.annualLimit.value) else Plain("No Limit")
    ensures cells[3].Money? <==> Truthy(d.annualLimit)
    ensures cells[3].Money? ==> cells[3].amount >= 0.0
    ensures cells[3].Money? ==> cells[3].amount >= d.annualLimit.value - OrZero(d.ytdAmount)
    ensures cells[3].Money? && OrZero(d.ytdAmount) <= d.annualLimit.value ==>
      cells[3].amount == d.annualLimit.value - OrZero(d.ytdAmount)
    ensures cells[3].Money? && OrZero(d.ytdAmount) >= d.annualLimit.value ==> cells[3].amount == 0.0
    ensures !cells[3].Money? ==> cells[3] == Plain("-")
    ensures cells[4] == DateOr(d.lastUpdated, "-")
  {
    var remaining := Remaining(d);
    [ Plain(SnakeToTitle(d.deductionType)),
      Money(OrZero(d.ytdAmount)),
      if Truthy(d.annualLimit) then Money(d.annualLimit.value) else Plain("No Limit"),
      if remaining.Some? then Money(ClampAtZero(remaining.value)) else Plain("-"),
      DateOr(d.lastUpdated, "-") ]
  }

  // ----- Budget -----

  const SurplusClass: string := "text-green-600 font-semibold"
  const DeficitClass: string := "text-red-600 font-semibold"
  const BalancedClass: string := "text-gray-600 font-semibold"

  /** `calculateSurplusDeficit(plan.actual_income || 0, plan.actual_expenditure || 0)` */
  function SurplusDeficit(plan: BudgetPlan): (amount: real)
    ensures amount + OrZero(plan.actualExpenditure) == OrZero(plan.actualIncome)
  {
    OrZero(plan.actualIncome) - OrZero(plan.actualExpenditure)
  }

  /** `getSurplusDeficitClass`: the sign of the amount picks the colour. */
  function SurplusDeficitClass(amount: real): (cls: string)
    ensures cls == SurplusClass <==> amount > 0.0
    ensures cls == DeficitClass <==> amount < 0.0
    ensures cls == BalancedClass <==> amount == 0.0
  {
    if amount > 0.0 then SurplusClass
    else if amount < 0.0 then DeficitClass
    else BalancedClass
  }

  /** A budget row is green exactly when actual income exceeds actual
      expenditure, red when it falls short, grey when they match, with
      absent values counting 0. */
  lemma BudgetRowColour(plan: BudgetPlan)
    ensures SurplusDeficitClass(SurplusDeficit(plan)) == SurplusClass <==>
      OrZero(plan.actualIncome) > OrZero(plan.actualExpenditure)
    ensures SurplusDeficitClass(SurplusDeficit(plan)) == DeficitClass <==>
      OrZero(plan.actualIncome) < OrZero(plan.actualExpenditure)
    ensures SurplusDeficitClass(SurplusDeficit(plan)) == BalancedClass <==>
      OrZero(plan.actualIncome) == OrZero(plan.actualExpenditure)
  {
  }

  /** A budget row: the four amounts (absent as 0), the surplus/deficit with
      its class, and the notes or '-'. */
  datatype BudgetRow = BudgetRow(month: Cell, amounts: seq<Cell>, surplusDeficit: real, surplusClass: string, notes: Cell)

  function BudgetPlanRow(plan: BudgetPlan): (row: BudgetRow)
    ensures row.month == DateText(plan.monthYear)
    ensures row.amounts == [Money(OrZero(plan.projectedIncome)), Money(OrZero(plan.projectedExpenditure)),
                            Money(OrZero(plan.actualIncome)), Money(OrZero(plan.actualExpenditure))]
    ensures row.surplusDeficit == SurplusDeficit(plan)
    ensures row.surplusClass == SurplusDeficitClass(row.surplusDeficit)
    ensures row.notes == if TruthyText(plan.notes) then Plain(plan.notes.value) else Plain("-")
  {
    var amount := SurplusDeficit(plan);
    BudgetRow(
      DateText(plan.monthYear),
      [Money(OrZero(plan.projectedIncome)), Money(OrZero(plan.projectedExpenditure)),
       Money(OrZero(plan.actualIncome)), Money(OrZero(plan.actualExpenditure))],
      amount,
      SurplusDeficitClass(amount),
      if TruthyText(plan.notes) then Plain(plan.notes.value) else Plain("-"))
  }

  // ----- Insurance -----

  /** `getStatusColor` of the Insurance page. */
  function PolicyStatusColor(status: string): (cls: string)
    ensures status == "active" ==> cls == GreenBadge
    ensures status == "expired" ==> cls == RedBadge
    ensures cls == GreyBadge <==> status != "active" && status != "expired"
  {
    match status
    case "active" => GreenBadge
    case "expired" => RedBadge
    case "cancelled" => GreyBadge
    case _ => GreyBadge
  }

  /** A policy row: the formatted type, the provider, the coverage or 'N/A'
      when it is absent or 0, the premium, the renewal date or 'N/A', the
      status label with its badge, and the last claim date or 'None'. */
  datatype PolicyRow = PolicyRow(cells: seq<Cell>, statusBadge: string)

  function InsurancePolicyRow(p: InsurancePolicy): (row: PolicyRow)
    ensures |row.cells| == 7
    ensures row.cells[0] == Plain(SnakeToTitle(p.policyType))
    ensures row.cells[1] == Plain(p.provider)
    ensures row.cells[2] == if Truthy(p.coverageAmount) then Money(p.coverageAmount.value) else Plain("N/A")
    ensures row.cells[3] == Money(OrZero(p.monthlyPremium))
    ensures row.cells[4] == DateOr(p.renewalDate, "N/A")
    ensures row.cells[5].Plain? && |row.cells[5].text| == |p.status|
    ensures |p.status| > 0 ==> row.cells[5].text[0] == Upper(p.status[0]) && row.cells[5].text[1..] == p.status[1..]
    ensures row.cells[6] == DateOr(p.lastClaimDate, "None")
    ensures row.statusBadge == PolicyStatusColor(p.status)
  {
    PolicyRow(
      [ Plain(SnakeToTitle(p.policyType)),
        Plain(p.provider),
        if Truthy(p.coverageAmount) then Money(p.coverageAmount.value) else Plain("N/A"),
        Money(OrZero(p.monthlyPremium)),
        DateOr(p.renewalDate, "N/A"),
        Plain(Capitalize(p.status)),
        DateOr(p.lastClaimDate, "None") ],
      PolicyStatusColor(p.status))
  }

  /** A zero coverage is shown as 'N/A' exactly like a missing one. */
  lemma ZeroCoverageIsNotApplicable(p: InsurancePolicy)
    requires p.coverageAmount == Some(0.0) || p.coverageAmount.None?
    ensures InsurancePolicyRow(p).cells[2] == Plain("N/A")
  {
  }
}

=== FILE: records.dfy ===
/** The entities of the dashboard as the record store returns them. Numeric
    columns that may be missing are `Option<real>`; amounts are assumed to be
    parsed already. */
module Records {
  import opened Wrappers

  /** A ledger entry. `kind` is the raw `type` column ("income", "expense"). */
  datatype Transaction = Transaction(
    id: string,
    date: string,
    kind: string,
    amount: Option<real>,
    category: Option<string>,
    note: Option<string>)

  datatype Goal = Goal(
    id: string,
    title: string,
    targetAmount: Option<real>,
    currentAmount: Option<real>,
    targetDate: Option<string>)

  datatype SavingsAccount = SavingsAccount(
    id: string,
    institution: string,
    accountType: string,
    balance: Option<real>,
    interestRate: Option<real>)

  datatype Debt = Debt(
    id: string,
    creditor: string,
    debtType: string,
    balance: Option<real>,
    monthlyPayment: Option<real>,
    interestRate: Option<real>,
    paymentDueDay: Option<int>)

  datatype InsurancePolicy = InsurancePolicy(
    id: string,
    policyType: string,
    provider: string,
    coverageAmount: Option<real>,
    monthlyPremium: Option<real>,
    renewalDate: Option<string>,
    status: string,
    lastClaimDate: Option<string>)

  datatype TaxRecord = TaxRecord(
    id: string,
    taxYear: int,
    taxableIncome: Option<real>,
    taxPayable: Option<real>,
    deductionsClaimed: Option<real>,
    refundAmount: Option<real>,
    amountOwing: Option<real>,
    sarsStatus: string,
    submissionDate: Option<string>)

  /** One row of the deductions tracker, keyed by (user, year, type). */
  datatype Deduction = Deduction(
    id: string,
    taxYear: int,
    deductionType: string,
    ytdAmount: Option<real>,
    annualLimit: Option<real>,
    lastUpdated: Option<string>)

  datatype BudgetPlan = BudgetPlan(
    id: string,
    monthYear: string,
    projectedIncome: Option<real>,
    projectedExpenditure: Option<real>,
    actualIncome: Option<real>,
    actualExpenditure: Option<real>,
    notes: Option<string>)

  /** JavaScript truthiness of an optional number: absent and 0 are falsy. */
  predicate Truthy(x: Option<real>) {
    x.Some? && x.value != 0.0
  }

  /** JavaScript truthiness of an optional string: absent and "" are falsy. */
  predicate TruthyText(s: Option<string>) {
    s.Some? && s.value != ""
  }

  /** `x || 0`: a missing number reads as zero; a present one as itself. */
  function OrZero(x: Option<real>): (r: real)
    ensures x.Some? ==> r == x.value
    ensures x.None? ==> r == 0.0
  {
    if Truthy(x) then x.value else 0.0
  }

  /** `x || 1`: a missing or zero number reads as one. */
  function OrOne(x: Option<real>): (r: real)
    ensures r != 0.0
    ensures Truthy(x) ==> r == x.value
    ensures !Truthy(x) ==> r == 1.0
  {
    if Truthy(x) then x.value else 1.0
  }
}

=== FILE: reports.dfy ===
/** The summary figures of the reports page: income and expense totals,
    savings, debt and net worth, goal progress, and the guarded ratios of the
    financial-summary panel (src/pages/Reports.jsx). */
module Reports {
  import opened Wrappers
  import opened Records
  import opened Sums

  const IncomeKind: string := "income"
  const ExpenseKind: string := "expense"

  /** `parseFloat(t.amount || 0)`: the amount a transaction contributes. */
  function AmountOf(t: Transaction): real {
    OrZero(t.amount)
  }

  function BalanceOfAccount(a: SavingsAccount): real {
    OrZero(a.balance)
  }

  function BalanceOfDebt(d: Debt): real {
    OrZero(d.balance)
  }

  /** `transactions.filter(t => t.type === kind)`. */
  function OfKind(ts: seq<Transaction>, kind: string): (r: seq<Transaction>)
    ensures |r| <= |ts|
  {
    if |ts| == 0 then []
    else
      var last := ts[|ts| - 1];
      OfKind(ts[..|ts| - 1], kind) + (if last.kind == kind then [last] else [])
  }

  /** The filter keeps exactly the transactions of the given type. */
  lemma {:induction false} OfKindMembers(ts: seq<Transaction>, kind: string)
    ensures forall t :: t in OfKind(ts, kind) <==> t in ts && t.kind == kind
    decreases |ts|
  {
    if |ts| > 0 {
      var init, last := ts[..|ts| - 1], ts[|ts| - 1];
      OfKindMembers(init, kind);
      assert ts == init + [last];
    }
  }

  /** The filter of a single transaction: itself when it has the type,
      nothing otherwise. */
  lemma OfKindSingleton(t: Transaction, kind: string)
    ensures OfKind([t], kind) == if t.kind == kind then [t] else []
  {
  }

  /** Filtering distributes over concatenation: kept transactions stay in
      their order, each as often as it occurs. */
  lemma {:induction false} OfKindAppend(a: seq<Transaction>, b: seq<Transaction>, kind: string)
    ensures OfKind(a + b, kind) == OfKind(a, kind) + OfKind(b, kind)
    decreases |b|
  {
    if |b| == 0 {
      assert a + b == a;
    } else {
      var init, last := b[..|b| - 1], b[|b| - 1];
      OfKindAppend(a, init, kind);
      assert (a + b)[..|a + b| - 1] == a + init;
      assert (a + b)[|a + b| - 1] == last;
    }
  }

  function TotalIncome(ts: seq<Transaction>): real {
    SumOf(OfKind(ts, IncomeKind), AmountOf)
  }

  function TotalExpenses(ts: seq<Transaction>): real {
    SumOf(OfKind(ts, ExpenseKind), AmountOf)
  }

  function TotalSavings(accounts: seq<SavingsAccount>): real {
    SumOf(accounts, BalanceOfAccount)
  }

  function TotalDebt(debts: seq<Debt>): real {
    SumOf(debts, BalanceOfDebt)
  }

  function NetWorth(accounts: seq<SavingsAccount>, debts: seq<Debt>): real {
    TotalSavings(accounts) - TotalDebt(debts)
  }

  /** What one transaction adds to the total of `kind`: its amount when it
      has that type, nothing otherwise. */
  function KindShare(t: Transaction, kind: string): real {
    if t.kind == kind then AmountOf(t) else 0.0
  }

  /** Reference definition of a per-type total without the filter: every
      transaction is visited and contributes its share. */
  function KindTotal(ts: seq<Transaction>, kind: string): real {
    if |ts| == 0 then 0.0
    else KindTotal(ts[..|ts| - 1], kind) + KindShare(ts[|ts| - 1], kind)
  }

  /** Reference for the cash flow: income counts positively, expenses
      negatively, every other type not at all. */
  function SignedContribution(t: Transaction): real {
    if t.kind == IncomeKind then AmountOf(t)
    else if t.kind == ExpenseKind then -AmountOf(t)
    else 0.0
  }

  /** Filtering then summing equals summing every transaction's share. */
  lemma {:induction false} FilteredTotalIsKindTotal(ts: seq<Transaction>, kind: string)
    ensures SumOf(OfKind(ts, kind), AmountOf) == KindTotal(ts, kind)
    decreases |ts|
  {
    if |ts| > 0 {
      var init, last := ts[..|ts| - 1], ts[|ts| - 1];
      FilteredTotalIsKindTotal(init, kind);
      SumOfAppend(OfKind(init, kind), if last.kind == kind then [last] else [], AmountOf);
      if last.kind == kind {
        assert [last][..0] == [];
      }
    }
  }

  /** Appending a transaction moves exactly the total of its own type, by its
      amount; a transaction of any other type moves neither total. */
  lemma TotalsAfterAppend(ts: seq<Transaction>, t: Transaction)
    ensures TotalIncome(ts + [t]) == TotalIncome(ts) + (if t.kind == IncomeKind then AmountOf(t) else 0.0)
    ensures TotalExpenses(ts + [t]) == TotalExpenses(ts) + (if t.kind == ExpenseKind then AmountOf(t) else 0.0)
  {
    FilteredTotalIsKindTotal(ts + [t], IncomeKind);
    FilteredTotalIsKindTotal(ts, IncomeKind);
    FilteredTotalIsKindTotal(ts + [t], ExpenseKind);
    FilteredTotalIsKindTotal(ts, ExpenseKind);
    assert (ts + [t])[..|ts|] == ts;
  }

  /** Only transactions typed `income` feed the income total and only those
      typed `expense` feed the expense total; a missing amount counts 0. */
  lemma {:induction false} TotalsAreTypedSums(ts: seq<Transaction>)
    ensures TotalIncome(ts) == KindTotal(ts, IncomeKind)
    ensures TotalExpenses(ts) == KindTotal(ts, ExpenseKind)
    ensures (forall i :: 0 <= i < |ts| ==> ts[i].kind != IncomeKind) ==> TotalIncome(ts) == 0.0
    ensures (forall i :: 0 <= i < |ts| ==> ts[i].kind != ExpenseKind) ==> TotalExpenses(ts) == 0.0
    decreases |ts|
  {
    FilteredTotalIsKindTotal(ts, IncomeKind);
    FilteredTotalIsKindTotal(ts, ExpenseKind);
    if |ts| > 0 {
      TotalsAreTypedSums(ts[..|ts| - 1]);
    }
  }

  /** With non-negative amounts both totals are non-negative. */
  lemma TotalsNonNegative(ts: seq<Transaction>)
    requires forall i :: 0 <= i < |ts| ==> AmountOf(ts[i]) >= 0.0
    ensures TotalIncome(ts) >= 0.0 && TotalExpenses(ts) >= 0.0
  {
    forall kind | kind == IncomeKind || kind == ExpenseKind
      ensures SumOf(OfKind(ts, kind), AmountOf) >= 0.0
    {
      var r := OfKind(ts, kind);
      OfKindMembers(ts, kind);
      forall i | 0 <= i < |r| ensures AmountOf(r[i]) >= 0.0 {
        assert r[i] in ts;
      }
      SumOfNonNegative(r, AmountOf);
    }
  }

  /** `totalIncome - totalExpenses`. */
  function CashFlow(ts: seq<Transaction>): real {
    TotalIncome(ts) - TotalExpenses(ts)
  }

  /** Income share minus expense share, summed over every transaction, is the
      signed sum. */
  lemma {:induction false} KindTotalsAreSigned(ts: seq<Transaction>)
    ensures KindTotal(ts, IncomeKind) - KindTotal(ts, ExpenseKind) == SumOf(ts, SignedContribution)
    decreases |ts|
  {
    if |ts| > 0 {
      var last := ts[|ts| - 1];
      KindTotalsAreSigned(ts[..|ts| - 1]);
      assert KindShare(last, IncomeKind) - KindShare(last, ExpenseKind) == SignedContribution(last);
    }
  }

  /** The cash flow equals the signed sum of all transactions. */
  lemma CashFlowIsSignedSum(ts: seq<Transaction>)
    ensures CashFlow(ts) == SumOf(ts, SignedContribution)
  {
    FilteredTotalIsKindTotal(ts, IncomeKind);
    FilteredTotalIsKindTotal(ts, ExpenseKind);
    KindTotalsAreSigned(ts);
  }

  /** Net worth moves up by an added account's balance and down by an added
      debt's balance, absent balances counting 0. */
  lemma NetWorthAfterAppend(accounts: seq<SavingsAccount>, debts: seq<Debt>, a: SavingsAccount, d: Debt)
    ensures NetWorth(accounts + [a], debts) == NetWorth(accounts, debts) + OrZero(a.balance)
    ensures NetWorth(accounts, debts + [d]) == NetWorth(accounts, debts) - OrZero(d.balance)
  {
    assert (accounts + [a])[..|accounts|] == accounts;
    assert (debts + [d])[..|debts|] == debts;
  }

  /** `totalIncome > 0 ? (totalIncome - totalExpenses) / totalIncome * 100 : 0` */
  function SavingsRate(ts: seq<Transaction>): (r: real)
    ensures TotalIncome(ts) <= 0.0 ==> r == 0.0
    ensures TotalIncome(ts) > 0.0 ==> r * TotalIncome(ts) == CashFlow(ts) * 100.0
  {
    var income := TotalIncome(ts);
    if income > 0.0 then (income - TotalExpenses(ts)) / income * 100.0 else 0.0
  }

  /** `totalSavings > 0 ? totalDebt / totalSavings * 100 : 0` */
  function DebtToAssets(accounts: seq<SavingsAccount>, debts: seq<Debt>): (r: real)
    ensures TotalSavings(accounts) <= 0.0 ==> r == 0.0
    ensures TotalSavings(accounts) > 0.0 ==> r * TotalSavings(accounts) == TotalDebt(debts) * 100.0
  {
    var savings := TotalSavings(accounts);
    if savings > 0.0 then TotalDebt(debts) / savings * 100.0 else 0.0
  }

  /** With non-negative amounts the savings rate never exceeds 100, and with
      non-negative balances the debt-to-assets ratio is never negative. */
  lemma RatioBounds(ts: seq<Transaction>, accounts: seq<SavingsAccount>, debts: seq<Debt>)
    requires forall i :: 0 <= i < |ts| ==> AmountOf(ts[i]) >= 0.0
    requires forall i :: 0 <= i < |debts| ==> BalanceOfDebt(debts[i]) >= 0.0
    ensures SavingsRate(ts) <= 100.0
    ensures DebtToAssets(accounts, debts) >= 0.0
  {
    TotalsNonNegative(ts);
    SumOfNonNegative(debts, BalanceOfDebt);
    var income := TotalIncome(ts);
    if income > 0.0 {
      var r := SavingsRate(ts);
      assert r * income == (income - TotalExpenses(ts)) * 100.0;
      assert r * income <= income * 100.0;
    }
  }

  /** `(goal.current_amount || 0) / (goal.target_amount || 1) * 100` */
  function GoalProgress(g: Goal): (p: real)
    ensures p * OrOne(g.targetAmount) == OrZero(g.currentAmount) * 100.0
    ensures !Truthy(g.targetAmount) ==> p == OrZero(g.currentAmount) * 100.0
  {
    OrZero(g.currentAmount) / OrOne(g.targetAmount) * 100.0
  }

  /** `goals.map(goal => ({ ...goal, progress }))`. */
  function GoalsProgress(goals: seq<Goal>): (r: seq<real>)
    ensures |r| == |goals|
    ensures forall i :: 0 <= i < |goals| ==> r[i] == GoalProgress(goals[i])
  {
    seq(|goals|, i requires 0 <= i < |goals| => GoalProgress(goals[i]))
  }

  /** `Math.min(goal.progress, 100)`: the progress-bar width. */
  function BarWidth(progress: real): (w: real)
    ensures w <= 100.0
    ensures w == progress || w == 100.0
    ensures progress <= 100.0 ==> w == progress
  {
    if progress < 100.0 then progress else 100.0
  }

  /** The sign of a product with a positive factor is the sign of the other. */
  lemma DivideByPositive(x: real, t: real)
    requires t > 0.0
    ensures x * t >= 0.0 <==> x >= 0.0
  {
    if x < 0.0 {
      assert x * t < 0.0;
    }
  }

  /** For a positive target, progress grows with the current amount and
      reaches 100 exactly when the current amount reaches the target. */
  lemma GoalProgressMonotone(g: Goal, current: real)
    requires g.targetAmount.Some? && g.targetAmount.value > 0.0
    requires OrZero(g.currentAmount) <= current
    ensures GoalProgress(g) <= GoalProgress(g.(currentAmount := Some(current)))
    ensures GoalProgress(g) >= 100.0 <==> OrZero(g.currentAmount) >= g.targetAmount.value
  {
    var t := g.targetAmount.value;
    var a := OrZero(g.currentAmount);
    var g' := g.(currentAmount := Some(current));
    var p, q := GoalProgress(g), GoalProgress(g');
    assert OrZero(g'.currentAmount) == current;
    assert p * t == a * 100.0;
    assert q * t == current * 100.0;
    assert (q - p) * t == (current - a) * 100.0;
    DivideByPositive(q - p, t);
    DivideByPositive(p - 100.0, t);
    assert (p - 100.0) * t == (a - t) * 100.0;
  }
}

=== FILE: scenarios.dfy ===
/** Worked examples of the reporting and budget derivations on concrete
    records. */
module Scenarios {
  import opened Wrappers
  import opened Records
  import opened Reports
  import opened Categories
  import opened Pages
  import opened Sums

  function Tx(kind: string, amount: real, category: string): Transaction {
    Transaction("", "", kind, Some(amount), Some(category), None)
  }

  function MonthTransactions(): seq<Transaction> {
    [Tx("income", 25000.0, "Salary"), Tx("expense", 1250.0, "Food"), Tx("expense", 850.0, "Fuel")]
  }

  lemma MonthKinds()
    ensures OfKind(MonthTransactions(), IncomeKind) == [MonthTransactions()[0]]
    ensures OfKind(MonthTransactions(), ExpenseKind) == [MonthTransactions()[1], MonthTransactions()[2]]
  {
    var ts := MonthTransactions();
    var a, b, c := ts[0], ts[1], ts[2];
    assert a.kind == IncomeKind && b.kind == ExpenseKind && c.kind == ExpenseKind;
    assert a.kind != ExpenseKind && b.kind != IncomeKind && c.kind != IncomeKind;
    assert [a][..0] == [];
    assert OfKind([a], IncomeKind) == [a] && OfKind([a], ExpenseKind) == [];
    assert [a, b][..1] == [a];
    assert OfKind([a, b], IncomeKind) == [a] && OfKind([a, b], ExpenseKind) == [b];
    assert ts[..2] == [a, b];
  }

  /** One income of 25000 and expenses of 1250 and 850: totals 25000 and
      2100. */
  lemma MonthlyTotals()
    ensures TotalIncome(MonthTransactions()) == 25000.0
    ensures TotalExpenses(MonthTransactions()) == 2100.0
  {
    var ts := MonthTransactions();
    var a, b, c := ts[0], ts[1], ts[2];
    MonthKinds();
    assert AmountOf(a) == 25000.0 && AmountOf(b) == 1250.0 && AmountOf(c) == 850.0;
    assert [a][..0] == [] && [b, c][..1] == [b];
    assert SumOf([a], AmountOf) == 25000.0;
    assert SumOf([b], AmountOf) == 1250.0;
  }

  /** The same month: cash flow 22900 on an income of 25000, a savings rate
      of 91.6%. */
  lemma MonthlySummaryExample()
    ensures CashFlow(MonthTransactions()) == 22900.0
    ensures SavingsRate(MonthTransactions()) == 91.6
  {
    MonthlyTotals();
  }

  function TieTransactions(): seq<Transaction> {
    [Tx("expense", 100.0, "B"), Tx("expense", 100.0, "A"), Tx("expense", 50.0, "C")]
  }

  /** The grouping fold, step by step, on the three tie transactions. */
  lemma TieDeposits()
    ensures Deposit([], "B", 100.0) == [Bucket("B", 100.0)]
    ensures Deposit([Bucket("B", 100.0)], "A", 100.0) == [Bucket("B", 100.0), Bucket("A", 100.0)]
    ensures Deposit([Bucket("B", 100.0), Bucket("A", 100.0)], "C", 50.0)
      == [Bucket("B", 100.0), Bucket("A", 100.0), Bucket("C", 50.0)]
  {
    assert Deposit([Bucket("B", 100.0)], "A", 100.0) == [Bucket("B", 100.0)] + Deposit([], "A", 100.0);
    assert Deposit([Bucket("A", 100.0)], "C", 50.0) == [Bucket("A", 100.0)] + Deposit([], "C", 50.0);
    assert Deposit([Bucket("B", 100.0), Bucket("A", 100.0)], "C", 50.0)
      == [Bucket("B", 100.0)] + Deposit([Bucket("A", 100.0)], "C", 50.0);
  }

  lemma TieExpenses()
    ensures OfKind(TieTransactions(), ExpenseKind) == TieTransactions()
  {
    var ts := TieTransactions();
    var a, b, c := ts[0], ts[1], ts[2];
    assert a.kind == ExpenseKind && b.kind == ExpenseKind && c.kind == ExpenseKind;
    assert [a][..0] == [];
    assert OfKind([a], ExpenseKind) == OfKind([], ExpenseKind) + [a];
    assert [a, b][..1] == [a];
    assert OfKind([a, b], ExpenseKind) == OfKind([a], ExpenseKind) + [b];
    assert ts[..2] == [a, b];
    assert OfKind(ts, ExpenseKind) == OfKind([a, b], ExpenseKind) + [c];
  }

  lemma TieGrouping()
    ensures ExpensesByCategory(TieTransactions()) == [Bucket("B", 100.0), Bucket("A", 100.0), Bucket("C", 50.0)]
  {
    var ts := TieTransactions();
    TieExpenses();
    TieDeposits();
    assert ts[..2][..1] == [ts[0]] && ts[..2] == [ts[0], ts[1]] && ts[..1] == [ts[0]];
    assert Label(ts[0]) == "B" && Label(ts[1]) == "A" && Label(ts[2]) == "C";
    assert AmountOf(ts[0]) == 100.0 && AmountOf(ts[1]) == 100.0 && AmountOf(ts[2]) == 50.0;
    assert Group(ts[..1]) == [Bucket("B", 100.0)];
    assert Group(ts[..2]) == [Bucket("B", 100.0), Bucket("A", 100.0)];
  }

  /** Categories B = 100, A = 100, C = 50 met in the order B, A, C keep that
      order: B stays ahead of A although their amounts tie. */
  lemma StableTieExample()
    ensures TopExpenseCategories(TieTransactions()) == [Bucket("B", 100.0), Bucket("A", 100.0), Bucket("C", 50.0)]
  {
    var g := [Bucket("B", 100.0), Bucket("A", 100.0), Bucket("C", 50.0)];
    TieGrouping();
    StableSortIsUnique(g, g);
    assert g[..Min(TopCount, 3)] == g;
  }

  /** Actual income 10000 against expenditure 12000: a deficit of 2000,
      shown red. */
  lemma BudgetDeficitExample()
    ensures SurplusDeficit(BudgetPlan("", "2025-01-01", None, None, Some(10000.0), Some(12000.0), None)) == -2000.0
    ensures SurplusDeficitClass(SurplusDeficit(BudgetPlan("", "2025-01-01", None, None, Some(10000.0), Some(12000.0), None))) == DeficitClass
  {
  }

  /** A goal of 150000 with 85600 saved stands at 85600/1500 percent, drawn
      as a bar of the same width. */
  lemma GoalProgressExample()
    ensures GoalProgress(Goal("", "Emergency Fund", Some(150000.0), Some(85600.0), None)) == 85600.0 / 1500.0
    ensures BarWidth(GoalProgress(Goal("", "Emergency Fund", Some(150000.0), Some(85600.0), None))) == 85600.0 / 1500.0
  {
  }
}

=== FILE: sums.dfy ===
/** The left-to-right fold `xs.reduce((sum, x) => sum + f(x), 0)`. */
module Sums {

  /** Sum of `f` over `xs`, accumulated from the front as `reduce` does. */
  function SumOf<T>(xs: seq<T>, f: T -> real): real
  {
    if |xs| == 0 then 0.0 else SumOf(xs[..|xs| - 1], f) + f(xs[|xs| - 1])
  }

  lemma {:induction false} SumOfAppend<T>(a: seq<T>, b: seq<T>, f: T -> real)
    ensures SumOf(a + b, f) == SumOf(a, f) + SumOf(b, f)
    decreases |b|
  {
    if |b| == 0 {
      assert a + b == a;
    } else {
      var b' := b[..|b| - 1];
      assert (a + b)[..|a + b| - 1] == a + b';
      SumOfAppend(a, b', f);
    }
  }

  lemma SumOfCons<T>(x: T, xs: seq<T>, f: T -> real)
    ensures SumOf([x] + xs, f) == f(x) + SumOf(xs, f)
  {
    SumOfAppend([x], xs, f);
    assert [x][..0] == [];
  }

  /** A sum of non-negative terms is non-negative. */
  lemma {:induction false} SumOfNonNegative<T>(xs: seq<T>, f: T -> real)
    requires forall i :: 0 <= i < |xs| ==> f(xs[i]) >= 0.0
    ensures SumOf(xs, f) >= 0.0
    decreases |xs|
  {
    if |xs| > 0 {
      SumOfNonNegative(xs[..|xs| - 1], f);
    }
  }
}

=== FILE: text.dfy ===
/** The string helpers behind the Tax and Insurance formatters:
    `split`, `join`, and `s.charAt(0).toUpperCase() + s.slice(1)`. */
module Text {

  /** `toUpperCase` on one character, for the ASCII letters. */
  function Upper(c: char): (u: char)
    ensures 'a' <= c <= 'z' ==> u as int == c as int - 32
    ensures !('a' <= c <= 'z') ==> u == c
    ensures 'A' <= u <= 'Z' || u == c
  {
    if 'a' <= c <= 'z' then (c as int - 32) as char else c
  }

  /** `s.charAt(0).toUpperCase() + s.slice(1)`; "" stays "". */
  function Capitalize(s: string): (r: string)
    ensures |r| == |s|
    ensures |s| > 0 ==> r[0] == Upper(s[0]) && r[1..] == s[1..]
  {
    if |s| == 0 then s else [Upper(s[0])] + s[1..]
  }

  /** `s.split(sep)`: always at least one piece; no piece holds `sep`. */
  function Split(s: string, sep: char): (pieces: seq<string>)
    ensures |pieces| >= 1
  {
    if |s| == 0 then [""]
    else
      var rest := Split(s[1..], sep);
      if s[0] == sep then [""] + rest
      else [[s[0]] + rest[0]] + rest[1..]
  }

  /** `pieces.join([sep])`. */
  function Join(pieces: seq<string>, sep: char): string {
    if |pieces| == 0 then ""
    else if |pieces| == 1 then pieces[0]
    else pieces[0] + [sep] + Join(pieces[1..], sep)
  }

  function CountChar(s: string, c: char): nat {
    if |s| == 0 then 0 else (if s[0] == c then 1 else 0) + CountChar(s[1..], c)
  }

  lemma {:induction false} SplitCount(s: string, sep: char)
    ensures |Split(s, sep)| == CountChar(s, sep) + 1
    decreases |s|
  {
    if |s| > 0 {
      SplitCount(s[1..], sep);
    }
  }

  lemma {:induction false} SplitNoSeparator(s: string, sep: char)
    ensures forall p :: p in Split(s, sep) ==> sep !in p
    decreases |s|
  {
    if |s| > 0 {
      var rest := Split(s[1..], sep);
      SplitNoSeparator(s[1..], sep);
      if s[0] != sep {
        var ps := Split(s, sep);
        assert ps == [[s[0]] + rest[0]] + rest[1..];
        assert rest[0] in rest;
        assert forall p :: p in ps ==> p == ps[0] || p in rest;
      }
    }
  }

  lemma {:induction false} JoinSplit(s: string, sep: char)
    ensures Join(Split(s, sep), sep) == s
    decreases |s|
  {
    if |s| > 0 {
      var rest := Split(s[1..], sep);
      JoinSplit(s[1..], sep);
      if s[0] == sep {
        assert Split(s, sep) == [""] + rest;
        assert ([""] + rest)[1..] == rest;
        if |rest| == 1 {
          assert s == [sep] + rest[0];
        }
      } else {
        var ps := Split(s, sep);
        assert ps == [[s[0]] + rest[0]] + rest[1..];
        if |rest| > 1 {
          assert ps[1..] == rest[1..];
          assert Join(rest, sep) == rest[0] + [sep] + Join(rest[1..], sep);
        }
        assert s == [s[0]] + s[1..];
      }
    }
  }

  /** Splitting yields one more piece than there are separators, no piece
      contains the separator, and joining restores the input. */
  lemma SplitJoin(s: string, sep: char)
    ensures |Split(s, sep)| == CountChar(s, sep) + 1
    ensures forall p :: p in Split(s, sep) ==> sep !in p
    ensures Join(Split(s, sep), sep) == s
  {
    SplitCount(s, sep);
    SplitNoSeparator(s, sep);
    JoinSplit(s, sep);
  }

  /** `pieces.map(capitalize)`. */
  function MapCapitalize(pieces: seq<string>): (r: seq<string>)
    ensures |r| == |pieces|
    ensures forall i :: 0 <= i < |pieces| ==> r[i] == Capitalize(pieces[i])
  {
    seq(|pieces|, i requires 0 <= i < |pieces| => Capitalize(pieces[i]))
  }

  /** `type.split('_').map(capitalize).join(' ')`: the Tax page's
      `formatDeductionType` and the Insurance page's `formatPolicyType`,
      which share one body. */
  function SnakeToTitle(s: string): string {
    Join(MapCapitalize(Split(s, '_')), ' ')
  }

  /** Reference, one character at a time: an underscore becomes a space, the
      character at the start of each piece is upper-cased (when `capital` for
      the very first), and every other character is kept. */
  function TitleFrom(s: string, capital: bool): (r: string)
    ensures |r| == |s|
  {
    if |s| == 0 then ""
    else if s[0] == '_' then " " + TitleFrom(s[1..], true)
    else [if capital then Upper(s[0]) else s[0]] + TitleFrom(s[1..], false)
  }

  /** Joining with a character prepended to the first piece. */
  lemma JoinConsFirst(x: char, p: string, rest: seq<string>, sep: char)
    ensures Join([[x] + p] + rest, sep) == [x] + Join([p] + rest, sep)
  {
    if |rest| > 0 {
      assert ([[x] + p] + rest)[1..] == rest;
      assert ([p] + rest)[1..] == rest;
    }
  }

  /** The pieces of `Split`, the first capitalized only when `capital`. */
  function CapitalizeAfterFirst(pieces: seq<string>, capital: bool): seq<string>
    requires |pieces| >= 1
  {
    [if capital then Capitalize(pieces[0]) else pieces[0]] + MapCapitalize(pieces[1..])
  }

  lemma {:induction false} SplitMapJoinIsTitle(s: string, capital: bool)
    ensures Join(CapitalizeAfterFirst(Split(s, '_'), capital), ' ') == TitleFrom(s, capital)
    decreases |s|
  {
    if |s| > 0 {
      var rest := Split(s[1..], '_');
      if s[0] == '_' {
        SplitMapJoinIsTitle(s[1..], true);
        var ps := Split(s, '_');
        assert ps == [""] + rest;
        var caps := CapitalizeAfterFirst(ps, capital);
        assert caps == [""] + MapCapitalize(rest);
        assert MapCapitalize(rest) == CapitalizeAfterFirst(rest, true);
        assert caps[1..] == MapCapitalize(rest);
      } else {
        SplitMapJoinIsTitle(s[1..], false);
        var ps := Split(s, '_');
        var head := [s[0]] + rest[0];
        assert ps == [head] + rest[1..];
        var first := if capital then Upper(s[0]) else s[0];
        assert (if capital then Capitalize(head) else head) == [first] + rest[0];
        assert ps[1..] == rest[1..];
        var caps := CapitalizeAfterFirst(ps, capital);
        assert caps == [[first] + rest[0]] + MapCapitalize(rest[1..]);
        JoinConsFirst(first, rest[0], MapCapitalize(rest[1..]), ' ');
        assert CapitalizeAfterFirst(rest, false) == [rest[0]] + MapCapitalize(rest[1..]);
      }
    }
  }

  /** The reference read position by position. */
  lemma {:induction false} TitleFromAt(s: string, capital: bool, i: int)
    requires 0 <= i < |s|
    ensures TitleFrom(s, capital)[i] ==
      if s[i] == '_' then ' '
      else if (if i == 0 then capital else s[i - 1] == '_') then Upper(s[i])
      else s[i]
    decreases i
  {
    if i > 0 {
      TitleFromAt(s[1..], s[0] == '_', i - 1);
    }
  }

  /** What the formatter puts at position `i`: a space for '_', the
      upper-cased character at the start of a piece, the character itself
      elsewhere. */
  function TitleCharAt(s: string, i: int): char
    requires 0 <= i < |s|
  {
    if s[i] == '_' then ' '
    else if i == 0 || s[i - 1] == '_' then Upper(s[i])
    else s[i]
  }

  /** Character by character: every '_' becomes a space, the first
      character and every character right after a '_' is upper-cased, and
      all others are kept; the length is unchanged. */
  lemma SnakeToTitleSpec(s: string)
    ensures |SnakeToTitle(s)| == |s|
    ensures forall i :: 0 <= i < |s| ==> SnakeToTitle(s)[i] == TitleCharAt(s, i)
  {
    var r := SnakeToTitle(s);
    SnakeToTitleIsTitleFrom(s);
    forall i | 0 <= i < |s| ensures r[i] == TitleCharAt(s, i) {
      TitleFromAt(s, true, i);
    }
  }

  /** Capitalizing every piece is capitalizing the first and mapping the
      rest. */
  lemma MapCapitalizeSplitsFirst(ps: seq<string>)
    requires |ps| >= 1
    ensures MapCapitalize(ps) == CapitalizeAfterFirst(ps, true)
  {
    var a, b := MapCapitalize(ps), CapitalizeAfterFirst(ps, true);
    forall i | 0 <= i < |a| ensures a[i] == b[i] {
      if i > 0 {
        assert b[i] == MapCapitalize(ps[1..])[i - 1];
      }
    }
  }

  lemma SnakeToTitleIsTitleFrom(s: string)
    ensures SnakeToTitle(s) == TitleFrom(s, true)
  {
    MapCapitalizeSplitsFirst(Split(s, '_'));
    SplitMapJoinIsTitle(s, true);
  }

  /** The formatted label holds no underscore, and formatting it again
      changes nothing. */
  lemma SnakeToTitleLaws(s: string)
    ensures '_' !in SnakeToTitle(s)
    ensures SnakeToTitle(SnakeToTitle(s)) == SnakeToTitle(s)
  {
    var r := SnakeToTitle(s);
    SnakeToTitleSpec(s);
    forall i | 0 <= i < |r| ensures r[i] != '_' {
      assert r[i] == TitleCharAt(s, i);
    }
    SnakeToTitleSpec(r);
    var rr := SnakeToTitle(r);
    forall i | 0 <= i < |r| ensures rr[i] == r[i] {
      assert rr[i] == TitleCharAt(r, i);
      assert r[i] == TitleCharAt(s, i);
    }
  }

  /** When the input holds no space, the output has one space-separated
      word per underscore-separated piece of the input. */
  lemma SnakeToTitlePieces(s: string)
    requires ' ' !in s
    ensures |Split(SnakeToTitle(s), ' ')| == |Split(s, '_')|
  {
    var r := SnakeToTitle(s);
    SnakeToTitleSpec(s);
    SplitJoin(s, '_');
    SplitJoin(r, ' ');
    forall i | 0 <= i < |s| ensures r[i] == ' ' <==> s[i] == '_' {
      assert r[i] == TitleCharAt(s, i);
      assert s[i] != ' ';
    }
    CountsAgree(s, r);
  }

  /** Spaces of the output sit exactly where the input had underscores. */
  lemma {:induction false} CountsAgree(s: string, r: string)
    requires |r| == |s|
    requires forall i :: 0 <= i < |s| ==> (r[i] == ' ' <==> s[i] == '_')
    ensures CountChar(r, ' ') == CountChar(s, '_')
    decreases |s|
  {
    if |s| > 0 {
      CountsAgree(s[1..], r[1..]);
    }
  }
}

=== FILE: validation.dfy ===
/** The two identifier predicates of src/utils/validation.js and the
    synthetic sign-in address built from an SA ID number. */
module Validation {

  /** The characters JavaScript's `\s` matches. */
  predicate IsWhitespace(c: char) {
    c == ' ' || c == '\t' || c == '\n' || c == '\U{000B}' || c == '\U{000C}' || c == '\r'
    || c == '\U{00A0}' || c == '\U{1680}' || ('\U{2000}' <= c <= '\U{200A}')
    || c == '\U{2028}' || c == '\U{2029}' || c == '\U{202F}' || c == '\U{205F}'
    || c == '\U{3000}' || c == '\U{FEFF}'
  }

  /** `\d` without the Unicode flag: the ASCII digits only. */
  predicate IsDigit(c: char) {
    '0' <= c <= '9'
  }

  /** `[^\s@]`. */
  predicate IsEmailChar(c: char) {
    !IsWhitespace(c) && c != '@'
  }

  predicate AllEmailChars(s: string) {
    forall k :: 0 <= k < |s| ==> IsEmailChar(s[k])
  }

  /** `/^[^\s@]+@[^\s@]+\.[^\s@]+$/`: some '@' at `i` and '.' at `j` cut the
      string into three non-empty runs of non-space, non-'@' characters. The
      middle and last runs may themselves contain dots. */
  predicate IsValidEmail(s: string): (b: bool)
    ensures b ==> 5 <= |s| && IsEmailChar(s[0]) && IsEmailChar(s[|s| - 1])
  {
    exists i, j :: 0 < i && i + 1 < j && j + 1 < |s| && s[i] == '@' && s[j] == '.'
      && AllEmailChars(s[..i]) && AllEmailChars(s[i + 1..j]) && AllEmailChars(s[j + 1..])
  }

  /** `/^\d{13}$/`. */
  predicate IsValidSAID(s: string): (b: bool)
    ensures b ==> '@' !in s && !IsValidEmail(s)
  {
    |s| == 13 && forall k :: 0 <= k < |s| ==> IsDigit(s[k])
  }

  const AppDomain: string := "@vault.app"

  /** `` `${identifier}@vault.app` ``. */
  function SyntheticEmail(id: string): (r: string)
    ensures |r| == |id| + |AppDomain|
    ensures r[..|id|] == id && r[|id|..] == AppDomain
    ensures r[|id|] == '@'
  {
    id + AppDomain
  }

  function CountOf(s: string, c: char): nat {
    if |s| == 0 then 0 else (if s[0] == c then 1 else 0) + CountOf(s[1..], c)
  }

  lemma {:induction false} CountOfAppend(a: string, b: string, c: char)
    ensures CountOf(a + b, c) == CountOf(a, c) + CountOf(b, c)
    decreases |a|
  {
    if |a| > 0 {
      assert (a + b)[1..] == a[1..] + b;
      CountOfAppend(a[1..], b, c);
    } else {
      assert a + b == b;
    }
  }

  lemma {:induction false} CountOfZero(s: string, c: char)
    ensures CountOf(s, c) == 0 <==> forall k :: 0 <= k < |s| ==> s[k] != c
    decreases |s|
  {
    if |s| > 0 {
      CountOfZero(s[1..], c);
      assert forall k :: 1 <= k < |s| ==> s[k] == s[1..][k - 1];
    }
  }

  /** Splitting at a position that holds `c`. */
  lemma CountAround(s: string, i: int, c: char)
    requires 0 <= i < |s| && s[i] == c
    ensures CountOf(s, c) == CountOf(s[..i], c) + 1 + CountOf(s[i + 1..], c)
  {
    assert s == s[..i] + [s[i]] + s[i + 1..];
    CountOfAppend(s[..i] + [s[i]], s[i + 1..], c);
    CountOfAppend(s[..i], [s[i]], c);
  }

  predicate NoWhitespace(s: string) {
    forall k :: 0 <= k < |s| ==> !IsWhitespace(s[k])
  }

  lemma EmailPartsCountOneAt(s: string, i: int, j: int)
    requires 0 < i && i + 1 < j && j + 1 < |s| && s[i] == '@' && s[j] == '.'
    requires AllEmailChars(s[..i]) && AllEmailChars(s[i + 1..j]) && AllEmailChars(s[j + 1..])
    ensures CountOf(s, '@') == 1
  {
    CountAround(s, i, '@');
    CountOfZero(s[..i], '@');
    var after := s[i + 1..];
    forall k | 0 <= k < |after| ensures after[k] != '@' {
      if k < j - i - 1 {
        assert after[k] == s[i + 1..j][k];
      } else if k > j - i - 1 {
        assert after[k] == s[j + 1..][k - (j - i)];
      }
    }
    CountOfZero(after, '@');
  }

  lemma EmailPartsNoWhitespace(s: string, i: int, j: int)
    requires 0 < i && i + 1 < j && j + 1 < |s| && s[i] == '@' && s[j] == '.'
    requires AllEmailChars(s[..i]) && AllEmailChars(s[i + 1..j]) && AllEmailChars(s[j + 1..])
    ensures NoWhitespace(s)
  {
    forall k | 0 <= k < |s| ensures !IsWhitespace(s[k]) {
      if k < i {
        assert s[k] == s[..i][k];
      } else if i < k < j {
        assert s[k] == s[i + 1..j][k - i - 1];
      } else if j < k {
        assert s[k] == s[j + 1..][k - j - 1];
      }
    }
  }

  /** Three runs of email characters around '@' and '.' hold exactly one
      '@' and no whitespace. */
  lemma EmailPartsHaveOneAt(s: string, i: int, j: int)
    requires 0 < i && i + 1 < j && j + 1 < |s| && s[i] == '@' && s[j] == '.'
    requires AllEmailChars(s[..i]) && AllEmailChars(s[i + 1..j]) && AllEmailChars(s[j + 1..])
    ensures CountOf(s, '@') == 1 && NoWhitespace(s)
  {
    EmailPartsCountOneAt(s, i, j);
    EmailPartsNoWhitespace(s, i, j);
  }

  /** With a single '@' and no whitespace, the runs around the '@' and a
      later '.' consist of email characters. */
  lemma OneAtGivesEmailParts(s: string, i: int, j: int)
    requires CountOf(s, '@') == 1 && NoWhitespace(s)
    requires 0 < i && i + 1 < j && j + 1 < |s| && s[i] == '@' && s[j] == '.'
    ensures AllEmailChars(s[..i]) && AllEmailChars(s[i + 1..j]) && AllEmailChars(s[j + 1..])
  {
    CountAround(s, i, '@');
    CountOfZero(s[..i], '@');
    CountOfZero(s[i + 1..], '@');
    forall k | 0 <= k < |s| && k != i ensures s[k] != '@' {
      if k < i {
        assert s[k] == s[..i][k];
      } else {
        assert s[k] == s[i + 1..][k - i - 1];
      }
    }
  }

  /** The email shape, restated: exactly one '@', no whitespace, something
      before the '@', and after it a '.' with something on each side. */
  lemma EmailCharacterization(s: string)
    ensures IsValidEmail(s) <==>
      CountOf(s, '@') == 1 && NoWhitespace(s)
      && exists i, j :: 0 < i && i + 1 < j && j + 1 < |s| && s[i] == '@' && s[j] == '.'
  {
    if IsValidEmail(s) {
      var i, j :| 0 < i && i + 1 < j && j + 1 < |s| && s[i] == '@' && s[j] == '.'
        && AllEmailChars(s[..i]) && AllEmailChars(s[i + 1..j]) && AllEmailChars(s[j + 1..]);
      EmailPartsHaveOneAt(s, i, j);
    }
    if CountOf(s, '@') == 1 && NoWhitespace(s)
      && exists i, j :: 0 < i && i + 1 < j && j + 1 < |s| && s[i] == '@' && s[j] == '.'
    {
      var i, j :| 0 < i && i + 1 < j && j + 1 < |s| && s[i] == '@' && s[j] == '.';
      OneAtGivesEmailParts(s, i, j);
    }
  }

  /** Every accepted email has exactly one '@' and no whitespace. */
  lemma EmailHasOneAtAndNoWhitespace(s: string)
    requires IsValidEmail(s)
    ensures CountOf(s, '@') == 1
    ensures forall k :: 0 <= k < |s| ==> !IsWhitespace(s[k])
  {
    EmailCharacterization(s);
  }

  /** No identifier is both an email and an SA ID, and the empty string is
      neither. */
  lemma IdentifierKindsAreDisjoint(s: string)
    ensures !(IsValidEmail(s) && IsValidSAID(s))
    ensures !IsValidEmail("") && !IsValidSAID("")
  {
    if IsValidEmail(s) {
      var i, j :| 0 < i && i + 1 < j && j + 1 < |s| && s[i] == '@' && s[j] == '.'
        && AllEmailChars(s[..i]) && AllEmailChars(s[i + 1..j]) && AllEmailChars(s[j + 1..]);
      assert !IsDigit(s[i]);
    }
  }

  /** The address synthesised from a valid SA ID is itself a valid email. */
  lemma SyntheticEmailIsValid(id: string)
    requires IsValidSAID(id)
    ensures IsValidEmail(SyntheticEmail(id))
  {
    var s := SyntheticEmail(id);
    assert s[13] == '@' && s[19] == '.';
    assert s[..13] == id;
    assert s[14..19] == "vault";
    assert s[20..] == "app";
    assert AllEmailChars(s[..13]);
  }
}

=== FILE: wrappers.dfy ===
/** Failure-compatible wrappers used throughout the model: an optional value
    (a JavaScript field that may be `null`/`undefined`) and a result-or-error
    pair (the `{ data, error }` replies of the record store). */
module Wrappers {

  datatype Option<+T> = None | Some(value: T) {

    /** The value, or `default` when absent. */
    function GetOr(default: T): T {
      match this
      case Some(v) => v
      case None => default
    }
  }

  datatype Result<+R, +E> = Success(value: R) | Failure(error: E)
}
